=== FILE: README.md ===
# identity-sdk core in Dafny

A model of the identity library's token and credential core. It covers:

- `Identity`: user resolution, login, access-token validation, refresh,
  logout and logout-everywhere;
- `JwtManager`: configuration, key provisioning at `init`, the
  one-time key cache, TTL choice, and the calls into jsonwebtoken's sign
  and verify;
- `Auth`: the argument guards around bcrypt's hash and compare;
- `DbManager` and the `User`/`RefreshToken` models: the store adapter's
  lookups, admin seeding, new-user document construction and the
  refresh-token records.

Every operation is a pure function from an explicit state to a new state.
Operations that can fail also return a `Result`. A few cannot fail and
return the new store alone: `CreateAdminUser` and `Connect`;
`DbManager.RemoveRefreshToken` and `DbManager.RemoveRefreshTokensByUserId`;
the `RefreshTokenModel` removals; and `LogoutUser`. `ValidateAccessToken`
cannot fail either. It returns the token manager's new state paired with
the validation result. The state is the store (both collections as sequences),
the token manager's fields and the file system as a map from path to
text. JavaScript values are the `Js.JsValue` datatype, with truthiness
following JavaScript's ToBoolean. Documents are maps from field name to
value. The opaque collaborators are function-typed parameters:
jsonwebtoken's `sign`/`verify` and bcrypt's `hash`/`compare`. The clock,
uuid generation, fresh ObjectIds, freshly generated RSA pairs and
Node's `writeFileSync` behaviour for non-string data are plain
parameters.

The main model follows the code as written, defects included. Each
defect found is listed under "## Findings". For each one, the as-written
behaviour is proved, and a corrected member with its intended property
sits next to it.

Files: `js.dfy` (JavaScript values, errors, Result), `auth.dfy`,
`jwt_manager.dfy`, `user_model.dfy`, `refresh_token_model.dfy`,
`db_manager.dfy`, `identity.dfy`.

## Notable behaviour of the code

The model follows the code in each of these cases:

- Registration does not hash the password. `createNewUser` hands the
  caller's object to `addUser`, which stores `password` exactly as given
  (`UserModel.CallerFieldsKept`, `Identity.CreateNewUser`).
- A login for an unknown user fails with the store's "no user found",
  not with a generic authentication failure.
- A login with a wrong password does not fail (see Findings).
- Only `password` is removed from the user before signing. `_id` stays in
  the token payload, and `refreshToken` records are stored under it.
- When both `username` and `email` are given, the username is used, and
  having both is not an error.
- `authenticateToken` passes `{ algorithm }` to `verify`. This is not the
  `algorithms` list jsonwebtoken reads, so verification is not pinned to
  RS256 by this option. The model records exactly the option object passed
  (`VerifyOptions(algorithm)`).
- Refresh does not consult the stored refresh records, so `logoutUser`
  does not revoke a refresh token that still verifies
  (`Identity.RefreshAfterLogout`).

## Model

| member | source | states |
|---|---|---|
| Js.PromiseObject | lib/Identity.js:69-70 | a Promise seen as a JavaScript value is truthy whatever it settles to |
| Auth.HashPassword | lib/Auth.js:26-36 | refuses exactly the empty or non-string plain texts, with "expected a string to hash"; otherwise settles as bcrypt's hash with cost 10 |
| Auth.ComparePassword | lib/Auth.js:45-58 | fails iff the plain text or the hash is empty or not a string; the plain text is checked first and each guard has its message; otherwise settles as bcrypt's compare of exactly those two strings |
| Auth.GuardsAgree | lib/Auth.js:26-58 | hashPassword refuses a plain text iff comparePassword refuses it as the plain text |
| JwtManager.Store | lib/JwtManager.js:102 | assigning one key field sets that field and leaves the other three alone |
| JwtManager.ParseType | lib/JwtManager.js:97-114 | the switch selects the access pair exactly for 'access' and the refresh pair exactly for 'refresh' |
| JwtManager.KeyPath | lib/JwtManager.js:55-58 | a non-truthy option falls back to the default path, a non-empty string option is used, and any other truthy value makes path.join throw |
| JwtManager.WriteFile | lib/JwtManager.js:64-65 | a string is written to the path and no other file changes. On a Node release that coerces, `undefined` is written as the text "undefined". On one that refuses, the call throws Node's TypeError about the data argument and no file changes |
| JwtManager.Provision | lib/JwtManager.js:60-74 | an existing private key file means nothing is generated or written; otherwise only the kind's two key fields and its two files change; it fails only on a Node that refuses non-string data, when a destructured name is missing from the generated object |
| JwtManager.GeneratedPairObject | lib/JwtManager.js:24-43 | the generated object has exactly the fields `publicKey` and `privateKey`, holding the pair, and none of the four names `init` destructures |
| JwtManager.ProvisionBoth | lib/JwtManager.js:60-74 | the two blocks change only key fields, never remove a file, and change nothing when both private key files exist |
| JwtManager.ProvisionBothKeepsAccess | lib/JwtManager.js:68-74 | the refresh block leaves the access key fields and the access key files as the access block left them |
| JwtManager.Configure | lib/JwtManager.js:50-58 | an `undefined` or `null` argument throws on reading `accessTtl`. Otherwise configuration succeeds exactly when all four key paths resolve: a truthy non-string path option throws `path.join`'s TypeError. On success the recorded paths are the four resolved paths, the algorithm is RS256 and the key fields keep their earlier values |
| JwtManager.Init | lib/JwtManager.js:50-75 | a failing configuration (missing options, a non-string path) fails init with the same error before any key is generated; a successful init sets RS256, keeps the configured paths and TTLs, and never removes a file |
| JwtManager.ReadKey | lib/JwtManager.js:83-85 | succeeds iff the file exists, with exactly its contents; otherwise ENOENT naming the path |
| JwtManager.LoadKey | lib/JwtManager.js:98-111 | a truthy cached key is used without touching the file system; otherwise the key is the file's contents, and exactly that value is cached; it fails with ENOENT iff the key is not cached and the file is missing |
| JwtManager.ExpiresIn | lib/JwtManager.js:116-119 | the TTL passed to sign is always one of the two configured TTLs |
| JwtManager.GenerateToken | lib/JwtManager.js:94-128 | an unknown type rejects with the type message and changes nothing; with no cached key and no key file it rejects with ENOENT and changes nothing; otherwise the key (cached, or the file's text) is cached and the outcome is sign's outcome with that key, the configured algorithm and the chosen TTL, rejection included; only the type's private key field may change |
| JwtManager.AuthenticateToken | lib/JwtManager.js:136-169 | an unknown type rejects and changes nothing; with no cached key and no key file it rejects with ENOENT and changes nothing; otherwise the key is cached and the outcome is verify's outcome with that key and the configured algorithm, rejection included; only the type's public key field may change |
| JwtManager.InitDefaults | lib/JwtManager.js:51-53 | after init the algorithm is RS256 and each TTL is the truthy option or else '1 hour' / '1 week' |
| JwtManager.ConfigureDefaults | lib/JwtManager.js:52-53 | each TTL is the truthy option, or else '1 hour' / '1 week' |
| JwtManager.InitWithKeysOnDisk | lib/JwtManager.js:60-74 | with both private key files present, init writes nothing and leaves the key fields as they were |
| JwtManager.ProvisionLosesKeys | lib/JwtManager.js:61-65 | destructuring by names the generated object lacks leaves both key fields `undefined` and writes "undefined" to both files |
| JwtManager.GeneratedAccessKeysLost | lib/JwtManager.js:60-66 | on a Node that writes `undefined` as text, a missing access key file ends with both access key fields `undefined` and both access files holding "undefined" |
| JwtManager.ProvisionBothLosesAccessKeys | lib/JwtManager.js:60-74 | with distinct paths and no access key file, both blocks on a Node that writes `undefined` as text succeed and leave the access key fields `undefined` and both access files holding "undefined" |
| JwtManager.InitFailsWhenKeysMissing | lib/JwtManager.js:60-74 | on a Node that refuses non-string data, init throws the data TypeError whenever a private key file is missing |
| JwtManager.ExpiresInChoice | lib/JwtManager.js:118 | 'access' and any truthy override get the access TTL; only a non-access type with no override gets the refresh TTL |
| JwtManager.GenerateTokenReadsKeyOnce | lib/JwtManager.js:97-111 | after a call has read a non-empty private key, the next call of that type reads no file: it behaves the same on any file system and keeps the manager state |
| JwtManager.AccessThenRefresh | lib/Identity.js:83-84 | signing an access and then a refresh token from one payload uses each kind's key as available before the first call, and each kind's TTL |
| JwtManager.AuthenticateTokenReadsKeyOnce | lib/JwtManager.js:139-153 | the same for the public keys of authenticateToken |
| JwtManager.OverrideIgnored | lib/JwtManager.js:118 | a refresh token requested with a truthy override is signed with the access TTL, not with the override |
| JwtManager.IntendedExpiresIn | lib/JwtManager.js:118 | corrected TTL: a truthy override wins, otherwise the TTL of the token's own kind |
| JwtManager.ExpiresInAgreement | lib/JwtManager.js:118 | the as-written and the corrected TTL agree iff there is no truthy override or the override equals the access TTL |
| JwtManager.InitIntended | lib/JwtManager.js:60-74 | corrected init: succeeds whenever the configuration does, on every Node release |
| JwtManager.ProvisionKeepsKeys | lib/JwtManager.js:60-66 | destructuring by the names generateKeyPair returns caches both generated halves and writes each to its file |
| JwtManager.IntendedInitKeepsAccessKeys | lib/JwtManager.js:60-66 | with the corrected names, a missing access key file ends with the generated pair cached and written |
| UserModel.ClashKey | models/User.js:43-54 | reports a unique field (`_id`, `user_id`, `username`, `email`) on which two documents' index keys are equal, and none iff they differ on all four |
| UserModel.FindClash | models/User.js:81-82 | no clash is reported iff the new document clashes with no stored one; a reported key is a clash with some stored document |
| UserModel.FindOne | lib/DbManager.js:102-103 | none iff no stored document has the value in that field; otherwise the first document that has it |
| UserModel.FindById | models/RefreshToken.js:28 | none iff no stored document has that `_id`; otherwise a stored document with it |
| UserModel.SetById | lib/Identity.js:75-76 | the document with the given `_id` gets the new field value and every other document is unchanged |
| UserModel.SetByIdKeepsUnique | lib/Identity.js:75-76 | saving a field with no unique index keeps the collection free of unique-index clashes |
| UserModel.SameIndexKeysSameClash | models/User.js:43-54 | whether two documents clash depends only on their values for the four unique fields |
| UserModel.StartingFields | models/User.js:73-79 | the starting fields are exactly `user_id`, `last_login`, `last_password_reset`, `updated_at`, `created_at` |
| UserModel.WithDefaults | models/User.js:55-56 | `email_verified` defaults to false and `identities` to an empty array; every other field is kept |
| UserModel.WithId | models/User.js:81 | a document without an ObjectId `_id` gets the fresh one; all other fields are kept |
| UserModel.NewUserDoc | models/User.js:81 | the new document's `_id` is the caller's ObjectId if given, otherwise the fresh one |
| UserModel.StartingFieldsWin | models/User.js:73-81 | the starting fields override caller values of the same names |
| UserModel.CallerFieldsKept | models/User.js:81 | every other defined caller field, password included, is stored exactly as given |
| UserModel.SchemaDefaults | models/User.js:55-56 | a new user's `email_verified` and `identities` take the schema defaults when the caller leaves them undefined |
| UserModel.Insert | models/User.js:82 | save succeeds iff no unique field clashes, appends the document, and keeps the collection unique; a refusal names a unique key |
| UserModel.AddUser | models/User.js:70-83 | the call succeeds exactly when the unique indexes accept the built document. The new collection is that document appended. A refusal is the same duplicate-key error the insert reports |
| RefreshTokenModel.Sessions | models/RefreshToken.js:17 | the records a user owns, in stored order: each is owned by that user, and there are no more than the stored records |
| RefreshTokenModel.SessionsAreOwnedRecords | models/RefreshToken.js:17 | the sessions of a user are exactly the stored records whose `user` is that user |
| RefreshTokenModel.AddRefreshToken | models/RefreshToken.js:27-40 | an unknown user throws on reading `_id`; otherwise the save succeeds iff the token is non-empty and not yet stored, appending one record stamped with the same time twice, and keeps tokens unique |
| RefreshTokenModel.FirstIndex | models/RefreshToken.js:46-48 | the position of the first record with the token, below the length iff the token is stored |
| RefreshTokenModel.RemoveRefreshToken | models/RefreshToken.js:46-48 | deleteOne cuts out the first record with the token, keeping the others in order, or changes nothing when the token is not stored |
| RefreshTokenModel.SplicedCons | models/RefreshToken.js:46-48 | cutting a record out of the tail is cutting it out of the whole collection one position later |
| RefreshTokenModel.RemoveRefreshTokensByUserId | models/RefreshToken.js:54-57 | deleteMany keeps exactly the records of other owners |
| RefreshTokenModel.RemoveDeletesAtMostOne | models/RefreshToken.js:46-48 | removing a token drops one record if it is stored and none otherwise, keeps every record with another token, and adds none |
| RefreshTokenModel.SplicedKeepsUnique | models/RefreshToken.js:16 | cutting one record out of a collection with unique tokens keeps them unique |
| RefreshTokenModel.RemoveKeepsTokensUnique | models/RefreshToken.js:46-48 | with unique tokens, removal keeps them unique and leaves no record with the removed token |
| RefreshTokenModel.RemoveByOwnerKeepsOthers | models/RefreshToken.js:54-57 | after deleting a user's records, that user has no sessions and every other user's sessions are unchanged, in order |
| RefreshTokenModel.RemoveByOwnerLeavesNone | models/RefreshToken.js:54-57 | after deleting a user's records that user has no sessions |
| RefreshTokenModel.RemoveByOwnerKeepsOther | models/RefreshToken.js:54-57 | deleting one user's records leaves every other user's sessions as they were, in order |
| RefreshTokenModel.RemoveByOwnerCount | models/RefreshToken.js:54-57 | deleteMany removes exactly as many records as the user had |
| RefreshTokenModel.RemoveByOwnerIdempotent | models/RefreshToken.js:54-57 | deleting a user's records twice is deleting them once |
| RefreshTokenModel.RemoveByOwnerKeepsTokensUnique | models/RefreshToken.js:54-57 | deleting a user's records keeps the remaining tokens unique |
| Js.Or | lib/JwtManager.js:52-58 | `a \|\| b` is `a` when `a` is truthy and `b` otherwise |
| DbManager.Found | lib/DbManager.js:104-108 | a missing user rejects with "no user found"; a found one resolves to it |
| DbManager.FindUserByUsername | lib/DbManager.js:100-111 | rejects with "no user found" iff no stored user has that username; otherwise resolves to a stored user with it |
| DbManager.FindUserByEmail | lib/DbManager.js:118-129 | rejects with "no user found" iff no stored user has that email; otherwise resolves to a stored user with it |
| DbManager.FindUserById | lib/DbManager.js:136-147 | rejects with "no user found" iff no stored user has that `_id`; otherwise resolves to a stored user with it |
| DbManager.AddUser | lib/DbManager.js:91-93 | the call succeeds exactly when the unique indexes accept the document the User model builds. That document is appended and the store stays valid. A refusal is a duplicate key |
| DbManager.CreateAdminUser | lib/DbManager.js:38-55 | with an admin present nothing changes; otherwise the built admin is appended unless the insert is refused, which leaves the store as it was |
| DbManager.Connect | lib/DbManager.js:67-83 | a missing initAdmin seeds as `true` does, a truthy one seeds, and a given falsy one leaves the store alone |
| DbManager.AddRefreshToken | lib/DbManager.js:155-157 | passes the RefreshToken model's outcome through, touching only the token collection |
| DbManager.RemoveRefreshToken | lib/DbManager.js:164-166 | deletes through the RefreshToken model, leaving users alone |
| DbManager.RemoveRefreshTokensByUserId | lib/DbManager.js:173-175 | deletes by owner through the RefreshToken model, leaving users alone |
| DbManager.ConnectIdempotent | lib/DbManager.js:67-83 | a connect that seeded the admin leaves the store alone when repeated with the same `initAdmin` |
| DbManager.ConnectSeedsAdmin | lib/DbManager.js:38-83 | a seeding connect leaves an admin stored unless the unique indexes refuse the admin document |
| DbManager.SeedingIdempotent | lib/DbManager.js:38-55 | once the admin has been seeded, seeding again changes nothing |
| DbManager.SeededAdminFields | lib/DbManager.js:43-50 | the seeded admin's username, name fields, nickname and password are all "admin", the password unhashed |
| DbManager.AdminField | lib/DbManager.js:43-50 | every field of the admin object reaches the built admin document as "admin" |
| DbManager.FindByUsernameFindsStoredUser | lib/DbManager.js:100-111 | in a valid store, looking up a stored user's non-empty username resolves to that very user |
| Identity.FindUserByUsernameOrEmail | lib/Identity.js:28-39 | a truthy username is looked up by username, otherwise a truthy email by email, otherwise "username or email is required"; a lookup fails iff no user matches |
| Identity.CreateNewUser | lib/Identity.js:53-55 | the call succeeds exactly when the unique indexes accept the built user document, and a refusal is a duplicate key. On success that document is appended to the users, the tokens are unchanged and the password is stored as given |
| Identity.PasswordStoredAsGiven | lib/Identity.js:53-55 | a defined password in the new user's object is stored unchanged |
| Identity.SessionTokens | lib/Identity.js:83-84 | only the manager's key fields change. Success needs both private keys cached or on disk, and then each slot caches that key. Each token is sign's result with that key and the kind's TTL. When both keys are found and both signatures succeed, the pair is issued |
| Identity.IssueSession | lib/Identity.js:74-89 | `last_login` is saved for the user's `_id`. Only the manager's key fields change; on success each private slot holds the key that was cached or on disk before the call. The session user is the stamped user without password. Both tokens are sign's results with those keys and each kind's TTL. Exactly one refresh record is appended for the user's `_id`, and none on failure |
| Identity.LoginUser | lib/Identity.js:65-90 | a lookup failure is propagated unchanged, the compare guards reject with their messages, and otherwise login issues a session; a valid store stays valid |
| Identity.IssueSessionKeepsValid | lib/Identity.js:74-89 | issuing a session keeps both collections free of unique-index clashes |
| Identity.IssueSessionSucceeds | lib/Identity.js:74-89 | a session is issued when both private keys are cached or on disk, both signatures succeed and the refresh token is new and non-empty |
| Identity.SavedUserFound | lib/Identity.js:75-87 | after `last_login` is saved, the user's own `_id` still finds a stored user, so the refresh record's owner lookup succeeds |
| Identity.LoginCanSucceed | lib/Identity.js:65-90 | a login whose user is found, whose passwords are non-empty strings and whose session can be issued resolves |
| Identity.ValidateAccessToken | lib/Identity.js:97-111 | validated iff verify accepts the token with the public access key (cached, or the file's text), with the payload as user, else user null; with no key available, not validated and nothing changes |
| Identity.ValidationReadsKeyOnce | lib/Identity.js:97-111 | after a validation has read a non-empty public access key, later validations give the same answer on any file system and leave the manager as it is |
| Identity.GetNewAccessToken | lib/Identity.js:118-128 | a refresh token that fails verification is deleted and its error re-thrown; a verified one settles as `generateToken('access', payload)` does and leaves the store alone |
| Identity.LogoutUser | lib/Identity.js:135-137 | the tokens are the old ones with the first record carrying the token cut out, in order (unchanged when none carries it); users unchanged, validity preserved, and the token no longer stored |
| Identity.LogoutUserEverywhere | lib/Identity.js:144-148 | fails iff the user lookup fails; otherwise the user has no sessions left and every other user's sessions are unchanged |
| Identity.LoginIgnoresPasswordMatch | lib/Identity.js:69-72 | login is the same for any two bcrypt compare functions |
| Identity.LoginStoresOneSession | lib/Identity.js:65-90 | a successful login appends exactly one refresh record, holding the returned refresh token and the user's `_id`, and returns the user without password |
| Identity.RefreshIgnoresStore | lib/Identity.js:118-128 | refresh gives the same manager state and outcome for any two stores |
| Identity.RefreshAfterLogout | lib/Identity.js:118-137 | after logoutUser deletes a token's record, refresh with that token settles exactly as before |
| Identity.WrongPasswordLogsIn | lib/Identity.js:69-72 | a password bcrypt reports as not matching still yields the session-issuing result |
| Identity.LoginUserAwaitingCompare | lib/Identity.js:65-90 | corrected login: succeeds only if compare resolves true; false rejects with "invalid password" |
| Identity.WrongPasswordRefused | lib/Identity.js:69-72 | with the compare awaited, a refused password changes neither the store nor the token manager |

## Left out

- Key generation and cryptography: `generateKeyPairSync`, the PEM encodings and the key passphrase (lib/JwtManager.js:24-43) are a `KeyPair` parameter. jsonwebtoken's signing and verification, and bcrypt's hashing and comparison, are function parameters. Their algorithms are outside this model.
- `Identity.init` (lib/Identity.js:41-45) calls `JwtManager.init()` with no argument. That call throws on reading `accessTtl` of `undefined` (lib/JwtManager.js:52; `JwtManager.Configure` states this), so the `DbManager.connect` call on the next line is never reached. `DbManager.Connect` is modelled on its own, for an application that connects without `Identity.init`. The `Identity` operations take the token manager state as a parameter. The model assumes the application configured the manager itself with a successful `JwtManager.init(options)` (`JwtManager.Init`), because `Identity.init` cannot. The connection, its URL and mongoose options, the connect callback, and the root `DbManager.js` are I/O and bootstrap.
- `path.join(__dirname, …)` normalisation: a key path is the configured string itself.
- Promise scheduling: un-awaited calls are sequential effects taken in program order. These are `user.save()` in login, `removeRefreshToken` in refresh, and `createAdminUser` and its `addUser`. Interleavings with other requests are not modelled.
- Mongoose details: schema type casting and strict-mode dropping of unknown fields, `__v`, the `toObject()` conversion (the model's user document is already a plain map), and the statics being attached to `User` after the model is compiled (models/User.js:62 and 70). The model takes `User.addUser` to be callable.
- The User schema declares no validator beyond `unique` (models/User.js:43-56), so no field format is checked and none is modelled.
- Numbers: `Js.Num` holds an integer. JavaScript numbers are doubles, so NaN (falsy) and fractional values such as a fractional TTL are not modelled.
- FindOne: `UserModel.FindOne` compares a filter value with a field by structural equality. Mongoose query semantics are not modelled: a `$`-operator object such as `{ $ne: null }` is a condition and not a value, and a 24-hex-digit String is cast to an ObjectId for an ObjectId field. Any promise about such inputs is left out. A value that cannot be cast (a CastError) is left out too; since the lookups have no rejection handler, such a call would never settle.
- FindUserByUsername: `DbManager.FindUserByUsername` matches by structural equality (see FindOne). A `$`-operator object passed as the username can find a user in the code but is "no user found" in the model.
- FindUserByEmail: `DbManager.FindUserByEmail` has the same gap for an email given as a `$`-operator object.
- FindUserById: `DbManager.FindUserById` takes an id that is already an ObjectId value. The String id the code documents is cast by mongoose and can find a user, but the model compares it structurally and rejects it.
- FindUserByUsernameOrEmail: `Identity.FindUserByUsernameOrEmail` inherits both gaps. Its "fails iff no stored user has the value" holds for plain values, not for operator objects passed through `loginUser` or `logoutUserEverywhere`.
- Identity.LoginUser, Identity.LogoutUserEverywhere: both destructure their argument (lib/Identity.js:65, 144), so a call with `undefined` or `null` rejects with a TypeError. The model takes the fields as separate values, which cannot express a missing argument object; a missing field is `undefined`, as destructuring gives.
- FindById: `UserModel.FindById` compares `_id` values structurally, so a String id never matches a stored ObjectId. mongoose would cast a 24-hex String to an ObjectId and find the document. Every caller in the model passes a stored `_id`, for which the lookup is exact.
- AddRefreshToken: `RefreshTokenModel.AddRefreshToken` looks the owner up with `FindById`, so a String `userId` is treated as an unknown user rather than cast. Login always passes the stored ObjectId `_id`, which the model handles exactly.
- RemoveRefreshTokensByUserId: `RefreshTokenModel.RemoveRefreshTokensByUserId` deletes records whose `user` equals the value structurally. `deleteMany({ user: userId })` with a String id is cast and would delete that user's records; the model deletes none. `logoutUserEverywhere` passes the stored `_id`, which the model handles exactly.
- Identity.GetNewAccessToken: `sign` is opaque, so a verified refresh token settles as `sign` does on its payload. jsonwebtoken refuses an `expiresIn` option when the payload already holds `exp`. A refresh token this library issues carries `exp` in its payload, so with the real library refresh as written would reject every such token. That behaviour belongs to jsonwebtoken and is not modelled.
- Tokens are strings. A non-string token handed to verify or to the stores is not modelled.
- The clock, `uuidv4()` and fresh ObjectIds are parameters (`Clock`, `UserModel.Fresh`).
- JwtManager.Init: a failing `init` returns only the error. The fields it had already assigned before throwing (TTLs, paths, possibly one key pair) are not kept in a partial state.
- Identity.LoginUser: when `sign` or the refresh-record save fails, only the outcome of `IssueSession` is stated. The errors jsonwebtoken or mongoose can raise are opaque.
- JwtManager.AuthenticateToken: states the options object passed (`{ algorithm }`), not what jsonwebtoken then does with an option it does not read.

## Findings

| source | as written | input that shows it | evidently intended | confidence | as-written member | corrected member |
|---|---|---|---|---|---|---|
| lib/JwtManager.js:118 | the conditional operator binds looser than `\|\|`, so any truthy `expiresIn` selects the access TTL and the override itself is never used | `generateToken('refresh', payload, '5 minutes')` is signed with the access TTL ('1 hour' by default) | a truthy `expiresIn` is the TTL, otherwise the TTL of the token's kind | high; not executed | JwtManager.OverrideIgnored | JwtManager.IntendedExpiresIn |
| lib/Identity.js:69-72 | `comparePassword` returns a Promise that is not awaited, and a Promise is truthy, so the invalid-password branch is dead | a stored user with hash `h` and a password for which bcrypt's compare against `h` resolves `false` still logs in and gets tokens | await the comparison and reject with "invalid password" when it resolves false | high; not executed | Identity.WrongPasswordLogsIn | Identity.LoginUserAwaitingCompare |
| lib/JwtManager.js:61-74 | the generated pair is destructured as `publicAccessKey`/`privateAccessKey` (and the refresh names), but `generateKeyPair` returns `publicKey`/`privateKey` (line 42), so both halves are `undefined` | `init({})` with no key files: the key fields stay `undefined` and the files receive the text "undefined", or, on Node 14 and later, `writeFileSync` throws | cache and write the generated keys | high; not executed | JwtManager.GeneratedAccessKeysLost | JwtManager.InitIntended |

The corrected members prove their intended properties:

- `JwtManager.IntendedExpiresIn` (with `JwtManager.ExpiresInAgreement`) honours the override.
- `Identity.WrongPasswordRefused` shows that a refused password changes nothing.
- `JwtManager.IntendedInitKeepsAccessKeys` shows that the generated keys are cached and written.

The rest of the model keeps the as-written definitions, so that each operation matches the code it cites.

=== FILE: auth.dfy ===
/** Password guards (lib/Auth.js). bcrypt itself is opaque: its hash and
    compare are parameters, and the model only fixes which arguments reach
    them and which are refused before. */
module Auth {
  import opened Js

  /** bcrypt's `hash(plainText, rounds)` */
  type HashFn = (string, nat) -> Result<string>

  /** bcrypt's `compare(plainText, hash)` */
  type CompareFn = (string, string) -> Result<bool>

  /** The bcrypt cost factor `hashPassword` always asks for. */
  const SaltRounds: nat := 10

  const HashArgumentMessage := "expected a string to hash"
  const PlainTextArgumentMessage := "expected a plain text string to compare"
  const HashToCompareMessage := "expected hash to compare to"

  /** `Auth.hashPassword`: throws synchronously on an empty or non-string
      argument, otherwise hands back bcrypt's promise, whose `.catch`
      re-throws, so it settles exactly as bcrypt does. */
  function HashPassword(plainText: JsValue, hash: HashFn): (r: Result<Promise<string>>)
    ensures r.Err? <==> !IsNonEmptyString(plainText)
    ensures r.Err? ==> r.error == TypeError(HashArgumentMessage)
    ensures r.Ok? ==> r.value.outcome == hash(plainText.s, 10)
  {
    if !Truthy(plainText) || !plainText.Str? then
      Err(TypeError(HashArgumentMessage))
    else
      Ok(Promise(hash(plainText.s, SaltRounds)))
  }

  /** `Auth.comparePassword`: the plain text is checked first, the stored
      hash second; with both acceptable the promise settles exactly as
      bcrypt's compare does. */
  function ComparePassword(plainText: JsValue, hash: JsValue, compare: CompareFn): (r: Result<Promise<bool>>)
    ensures r.Err? <==> !IsNonEmptyString(plainText) || !IsNonEmptyString(hash)
    ensures !IsNonEmptyString(plainText) ==> r == Err(TypeError(PlainTextArgumentMessage))
    ensures IsNonEmptyString(plainText) && !IsNonEmptyString(hash) ==> r == Err(TypeError(HashToCompareMessage))
    ensures r.Ok? ==> r.value.outcome == compare(plainText.s, hash.s)
  {
    if !Truthy(plainText) || !plainText.Str? then
      Err(TypeError(PlainTextArgumentMessage))
    else if !Truthy(hash) || !hash.Str? then
      Err(TypeError(HashToCompareMessage))
    else
      Ok(Promise(compare(plainText.s, hash.s)))
  }

  /** Both functions refuse the same plain texts: whatever `hashPassword`
      would hash, `comparePassword` accepts as the plain text to compare. */
  lemma GuardsAgree(plainText: JsValue, hash: HashFn, stored: JsValue, compare: CompareFn)
    ensures HashPassword(plainText, hash).Err?
            <==> ComparePassword(plainText, stored, compare) == Err(TypeError(PlainTextArgumentMessage))
  {
  }
}

=== FILE: db_manager.dfy ===
/** The store adapter (lib/DbManager.js): user lookups that reject when
    nothing matches, admin seeding on connect, and the refresh-token
    operations handed through to the RefreshToken collection. The store is
    an immutable value holding both collections. */
module DbManager {
  import opened Js
  import UserModel
  import RefreshTokenModel

  datatype Store = Store(users: seq<Doc>, tokens: seq<RefreshTokenModel.RefreshRecord>)

  /** What the unique indexes of both collections guarantee. */
  predicate Valid(store: Store) {
    UserModel.Unique(store.users) && RefreshTokenModel.UniqueTokens(store.tokens)
  }

  const NoUserFound := "no user found"

  /** The common shape of the three lookups: the query's user, or a
      rejection with "no user found". */
  function Found(found: Option<Doc>): (r: Result<Doc>)
    ensures r.Err? <==> found.None?
    ensures r.Err? ==> r.error == PlainError(NoUserFound)
    ensures r.Ok? ==> r.value == found.value
  {
    match found
    case None => Err(PlainError(NoUserFound))
    case Some(user) => Ok(user)
  }

  /** `DbManager.findUserByUsername(username)` */
  function FindUserByUsername(store: Store, username: JsValue): (r: Result<Doc>)
    ensures r.Err? <==> forall i :: 0 <= i < |store.users| ==> Get(store.users[i], "username") != username
    ensures r.Err? ==> r.error == PlainError(NoUserFound)
    ensures r.Ok? ==> r.value in store.users && Get(r.value, "username") == username
  {
    Found(UserModel.FindOne(store.users, "username", username))
  }

  /** `DbManager.findUserByEmail(email)` */
  function FindUserByEmail(store: Store, email: JsValue): (r: Result<Doc>)
    ensures r.Err? <==> forall i :: 0 <= i < |store.users| ==> Get(store.users[i], "email") != email
    ensures r.Err? ==> r.error == PlainError(NoUserFound)
    ensures r.Ok? ==> r.value in store.users && Get(r.value, "email") == email
  {
    Found(UserModel.FindOne(store.users, "email", email))
  }

  /** `DbManager.findUserById(userId)` */
  function FindUserById(store: Store, userId: JsValue): (r: Result<Doc>)
    ensures r.Err? <==> forall i :: 0 <= i < |store.users| ==> Get(store.users[i], "_id") != userId
    ensures r.Err? ==> r.error == PlainError(NoUserFound)
    ensures r.Ok? ==> r.value in store.users && Get(r.value, "_id") == userId
  {
    Found(UserModel.FindById(store.users, userId))
  }

  /** `DbManager.addUser(newUserObject)`, which `Identity.createNewUser`
      calls unchanged. */
  function AddUser(store: Store, caller: Doc, ids: UserModel.Fresh): (r: Result<(Store, Doc)>)
    ensures r.Ok? ==> r.value.0 == store.(users := store.users + [r.value.1])
    ensures r.Ok? ==> r.value.1 == UserModel.NewUserDoc(caller, ids)
    ensures r.Err? ==> r.error.DuplicateKey?
    ensures r.Ok? <==> UserModel.Insert(store.users, UserModel.NewUserDoc(caller, ids)).Ok?
    ensures r.Ok? && Valid(store) ==> Valid(r.value.0)
  {
    var added :- UserModel.AddUser(store.users, caller, ids);
    Ok((store.(users := added.0), added.1))
  }

  /** The object `createAdminUser` passes to `addUser`. */
  const AdminObject: Doc := map[
    "username" := Str("admin"),
    "name" := Str("admin"),
    "given_name" := Str("admin"),
    "family_name" := Str("admin"),
    "nickname" := Str("admin"),
    "password" := Str("admin")]

  predicate HasAdmin(store: Store) {
    exists i :: 0 <= i < |store.users| && Get(store.users[i], "username") == Str("admin")
  }

  /** `createAdminUser()`: adds the admin user only when no user is named
      "admin". The `addUser` call is not awaited, so a refused insert
      leaves the store as it was and reports nothing. */
  function CreateAdminUser(store: Store, ids: UserModel.Fresh): (r: Store)
    ensures HasAdmin(store) ==> r == store
    ensures r.tokens == store.tokens
    ensures r == store || r.users == store.users + [UserModel.NewUserDoc(AdminObject, ids)]
    ensures !HasAdmin(store) ==>
              (r == store <==> UserModel.Insert(store.users, UserModel.NewUserDoc(AdminObject, ids)).Err?)
  {
    if UserModel.FindOne(store.users, "username", Str("admin")).Some? then store
    else
      match AddUser(store, AdminObject, ids)
      case Ok(added) => added.0
      case Err(_) => store
  }

  /** `DbManager.connect(host, port, name, initAdmin = true, callback)` once
      the connection is up: seeds the admin when `initAdmin` is truthy, a
      missing (`undefined`) argument taking the default `true`. */
  function Connect(store: Store, initAdmin: JsValue, ids: UserModel.Fresh): (r: Store)
    ensures initAdmin.Undefined? ==> r == CreateAdminUser(store, ids)
    ensures !initAdmin.Undefined? && !Truthy(initAdmin) ==> r == store
    ensures Truthy(initAdmin) ==> r == CreateAdminUser(store, ids)
  {
    var seed := if initAdmin.Undefined? then Bool(true) else initAdmin;
    if Truthy(seed) then CreateAdminUser(store, ids) else store
  }

  /** `DbManager.addRefreshToken(userId, refreshToken)` */
  function AddRefreshToken(store: Store, userId: JsValue, token: string, now: int): (r: Result<Store>)
    ensures r.Ok? <==> RefreshTokenModel.AddRefreshToken(store.users, store.tokens, userId, token, now).Ok?
    ensures r.Ok? ==> r.value == store.(tokens := RefreshTokenModel.AddRefreshToken(store.users, store.tokens, userId, token, now).value)
    ensures r.Err? ==> r.error == RefreshTokenModel.AddRefreshToken(store.users, store.tokens, userId, token, now).error
  {
    var tokens :- RefreshTokenModel.AddRefreshToken(store.users, store.tokens, userId, token, now);
    Ok(store.(tokens := tokens))
  }

  /** `DbManager.removeRefreshToken(refreshToken)` */
  function RemoveRefreshToken(store: Store, token: string): (r: Store)
    ensures r.users == store.users
    ensures r.tokens == RefreshTokenModel.RemoveRefreshToken(store.tokens, token)
  {
    store.(tokens := RefreshTokenModel.RemoveRefreshToken(store.tokens, token))
  }

  /** `DbManager.removeRefreshTokensByUserId(userId)` */
  function RemoveRefreshTokensByUserId(store: Store, userId: JsValue): (r: Store)
    ensures r.users == store.users
    ensures r.tokens == RefreshTokenModel.RemoveRefreshTokensByUserId(store.tokens, userId)
  {
    store.(tokens := RefreshTokenModel.RemoveRefreshTokensByUserId(store.tokens, userId))
  }

  // ---------------------------------------------------------------------
  // Properties

  /** Seeding twice is seeding once: once an admin is stored, a second seed
      changes nothing, whatever ids it is handed. */
  lemma SeedingIdempotent(store: Store, ids1: UserModel.Fresh, ids2: UserModel.Fresh)
    ensures CreateAdminUser(store, ids1) != store ==>
            CreateAdminUser(CreateAdminUser(store, ids1), ids2) == CreateAdminUser(store, ids1)
  {
    if CreateAdminUser(store, ids1) != store {
      var seeded := CreateAdminUser(store, ids1);
      var admin := UserModel.NewUserDoc(AdminObject, ids1);
      AdminField(ids1, "username");
      assert seeded.users[|store.users|] == admin;
      assert UserModel.FindOne(seeded.users, "username", Str("admin")).Some?;
    }
  }

  /** A connect that seeded is idempotent: connecting again with the same
      `initAdmin` leaves the store alone, whatever ids it is handed. */
  lemma ConnectIdempotent(store: Store, initAdmin: JsValue, ids1: UserModel.Fresh, ids2: UserModel.Fresh)
    ensures var once := Connect(store, initAdmin, ids1);
            once != store ==> Connect(once, initAdmin, ids2) == once
  {
    SeedingIdempotent(store, ids1, ids2);
  }

  /** A seeding connect leaves an admin in the store unless the unique
      indexes refuse the admin document. */
  lemma ConnectSeedsAdmin(store: Store, initAdmin: JsValue, ids: UserModel.Fresh)
    ensures (initAdmin.Undefined? || Truthy(initAdmin))
            && UserModel.Insert(store.users, UserModel.NewUserDoc(AdminObject, ids)).Ok? ==>
              HasAdmin(Connect(store, initAdmin, ids))
  {
    if (initAdmin.Undefined? || Truthy(initAdmin)) && !HasAdmin(store)
       && UserModel.Insert(store.users, UserModel.NewUserDoc(AdminObject, ids)).Ok? {
      var seeded := Connect(store, initAdmin, ids);
      AdminField(ids, "username");
      assert seeded.users[|store.users|] == UserModel.NewUserDoc(AdminObject, ids);
    }
  }

  /** The seeded admin's profile and password fields are all "admin"; the
      password is stored as given. */
  lemma SeededAdminFields(store: Store, ids: UserModel.Fresh)
    ensures var seeded := CreateAdminUser(store, ids);
            seeded != store ==>
            var admin := seeded.users[|store.users|];
            && Get(admin, "username") == Str("admin")
            && Get(admin, "name") == Str("admin")
            && Get(admin, "given_name") == Str("admin")
            && Get(admin, "family_name") == Str("admin")
            && Get(admin, "nickname") == Str("admin")
            && Get(admin, "password") == Str("admin")
  {
    if CreateAdminUser(store, ids) != store {
      assert CreateAdminUser(store, ids).users[|store.users|] == UserModel.NewUserDoc(AdminObject, ids);
      AdminField(ids, "username");
      AdminField(ids, "name");
      AdminField(ids, "given_name");
      AdminField(ids, "family_name");
      AdminField(ids, "nickname");
      AdminField(ids, "password");
    }
  }

  /** Every field of the admin object survives the defaults of the user
      schema unchanged. */
  lemma AdminField(ids: UserModel.Fresh, k: string)
    requires k in AdminObject
    ensures Get(UserModel.NewUserDoc(AdminObject, ids), k) == Str("admin")
  {
    assert AdminObject[k] == Str("admin");
    UserModel.CallerFieldsKept(AdminObject, ids, k);
  }

  /** A lookup by a value some stored user has succeeds, and with the
      unique index on username it returns that very user. */
  lemma FindByUsernameFindsStoredUser(store: Store, i: nat)
    requires Valid(store)
    requires i < |store.users| && IsNonEmptyString(Get(store.users[i], "username"))
    ensures FindUserByUsername(store, Get(store.users[i], "username")) == Ok(store.users[i])
  {
    var name := Get(store.users[i], "username");
    var r := FindUserByUsername(store, name);
    var found := UserModel.FindOne(store.users, "username", name);
    var k :| 0 <= k < |store.users| && store.users[k] == found.value && Get(found.value, "username") == name
             && forall j :: 0 <= j < k ==> Get(store.users[j], "username") != name;
  }
}

=== FILE: identity.dfy ===
/** The identity orchestrator (lib/Identity.js): user resolution, login,
    access-token validation, refresh, logout and logout-everywhere, as
    transitions over the store and the token manager's state. Un-awaited
    calls inside these operations are taken as sequential effects. */
module Identity {
  import opened Js
  import Auth
  import JwtManager
  import UserModel
  import RefreshTokenModel
  import DbManager

  const UsernameOrEmailRequired := "username or email is required"
  const InvalidPassword := "invalid password"

  /** The state an operation leaves behind, and how it settled. The token
      manager's key cache can be filled even by a call that fails. */
  datatype Step<+T> = Step(store: DbManager.Store, jwt: JwtManager.Jwt, result: Result<T>)

  /** The argument of `loginUser`. */
  datatype Credentials = Credentials(username: JsValue, email: JsValue, password: JsValue)

  /** `{ accessToken, refreshToken, user }` */
  datatype Session = Session(accessToken: string, refreshToken: string, user: Doc)

  /** `{ user, validated }`; `None` stands for `user: null`. */
  datatype Validation = Validation(user: Option<Doc>, validated: bool)

  /** The two `new Date()` readings of a login: the `last_login` stamp and
      the refresh record's timestamps. */
  datatype Clock = Clock(loginAt: int, issuedAt: int)

  /** `findUserByUsernameOrEmail({ username, email })`: a truthy username is
      looked up by username, otherwise a truthy email by email, otherwise
      the call throws. */
  function FindUserByUsernameOrEmail(store: DbManager.Store, username: JsValue, email: JsValue): (r: Result<Doc>)
    ensures !Truthy(username) && !Truthy(email) ==> r == Err(PlainError(UsernameOrEmailRequired))
    ensures r.Ok? ==> r.value in store.users
    ensures r.Ok? && Truthy(username) ==> Get(r.value, "username") == username
    ensures r.Ok? && !Truthy(username) ==> Get(r.value, "email") == email
    ensures Truthy(username) ==>
              (r.Err? <==> forall i :: 0 <= i < |store.users| ==> Get(store.users[i], "username") != username)
    ensures !Truthy(username) && Truthy(email) ==>
              (r.Err? <==> forall i :: 0 <= i < |store.users| ==> Get(store.users[i], "email") != email)
    ensures Truthy(username) || Truthy(email) ==> r.Err? ==> r.error == PlainError(DbManager.NoUserFound)
  {
    if Truthy(username) then DbManager.FindUserByUsername(store, username)
    else if Truthy(email) then DbManager.FindUserByEmail(store, email)
    else Err(PlainError(UsernameOrEmailRequired))
  }

  /** `Identity.createNewUser(newUserObject)`: the new user is stored as
      given, with no hashing of its password. */
  function CreateNewUser(store: DbManager.Store, newUserObject: Doc, ids: UserModel.Fresh): (r: Result<(DbManager.Store, Doc)>)
    ensures r.Ok? <==> UserModel.Insert(store.users, UserModel.NewUserDoc(newUserObject, ids)).Ok?
    ensures r.Err? ==> r.error.DuplicateKey?
    ensures r.Ok? ==> r.value.1 == UserModel.NewUserDoc(newUserObject, ids)
    ensures r.Ok? ==> r.value.0.tokens == store.tokens && r.value.0.users == store.users + [r.value.1]
    ensures r.Ok? && "password" in newUserObject && !newUserObject["password"].Undefined? ==>
              Get(r.value.1, "password") == newUserObject["password"]
  {
    var added :- DbManager.AddUser(store, newUserObject, ids);
    PasswordStoredAsGiven(newUserObject, ids);
    Ok(added)
  }

  lemma PasswordStoredAsGiven(caller: Doc, ids: UserModel.Fresh)
    ensures "password" in caller && !caller["password"].Undefined? ==>
              Get(UserModel.NewUserDoc(caller, ids), "password") == caller["password"]
  {
    if "password" in caller && !caller["password"].Undefined? {
      UserModel.CallerFieldsKept(caller, ids, "password");
    }
  }

  /** The two `generateToken` calls of `loginUser`: an access token, then a
      refresh token from the state the first call left, each with the
      matching private key and the manager's own TTL. */
  function SessionTokens(jwt: JwtManager.Jwt, fs: JwtManager.Fs, sign: JwtManager.SignFn,
                         payload: Doc): (r: (JwtManager.Jwt, Result<(string, string)>))
    ensures r.0.(keys := jwt.keys) == jwt
    ensures r.1.Ok? ==>
              && JwtManager.KeyAvailable(jwt, fs, JwtManager.KeySlot(JwtManager.Access, true))
              && JwtManager.KeyAvailable(jwt, fs, JwtManager.KeySlot(JwtManager.Refresh, true))
              && JwtManager.Cached(r.0.keys, JwtManager.KeySlot(JwtManager.Access, true))
                 == JwtManager.KeyFor(jwt, fs, JwtManager.KeySlot(JwtManager.Access, true))
              && JwtManager.Cached(r.0.keys, JwtManager.KeySlot(JwtManager.Refresh, true))
                 == JwtManager.KeyFor(jwt, fs, JwtManager.KeySlot(JwtManager.Refresh, true))
              && sign(payload, JwtManager.KeyFor(jwt, fs, JwtManager.KeySlot(JwtManager.Access, true)),
                      JwtManager.SignOptions(jwt.algorithm, jwt.accessTtl)) == Ok(r.1.value.0)
              && sign(payload, JwtManager.KeyFor(jwt, fs, JwtManager.KeySlot(JwtManager.Refresh, true)),
                      JwtManager.SignOptions(jwt.algorithm, jwt.refreshTtl)) == Ok(r.1.value.1)
    ensures && JwtManager.KeyAvailable(jwt, fs, JwtManager.KeySlot(JwtManager.Access, true))
            && JwtManager.KeyAvailable(jwt, fs, JwtManager.KeySlot(JwtManager.Refresh, true))
            && sign(payload, JwtManager.KeyFor(jwt, fs, JwtManager.KeySlot(JwtManager.Access, true)),
                    JwtManager.SignOptions(jwt.algorithm, jwt.accessTtl)).Ok?
            && sign(payload, JwtManager.KeyFor(jwt, fs, JwtManager.KeySlot(JwtManager.Refresh, true)),
                    JwtManager.SignOptions(jwt.algorithm, jwt.refreshTtl)).Ok?
            ==> r.1.Ok?
  {
    var access := JwtManager.GenerateToken(jwt, fs, sign, "access", payload, Undefined);
    if access.1.Err? then (access.0, Err(access.1.error))
    else
      var refresh := JwtManager.GenerateToken(access.0, fs, sign, "refresh", payload, Undefined);
      assert JwtManager.KeyFor(access.0, fs, JwtManager.KeySlot(JwtManager.Refresh, true))
             == JwtManager.KeyFor(jwt, fs, JwtManager.KeySlot(JwtManager.Refresh, true));
      if refresh.1.Err? then (refresh.0, Err(refresh.1.error))
      else (refresh.0, Ok((access.1.value, refresh.1.value)))
  }

  /** The part of `loginUser` after the password check: stamp and save
      `last_login`, strip `password` from the plain-object copy, sign an
      access and a refresh token from it and store the refresh token
      against the user's `_id`. */
  function IssueSession(store: DbManager.Store, jwt: JwtManager.Jwt, fs: JwtManager.Fs, sign: JwtManager.SignFn,
                        user: Doc, clock: Clock): (r: Step<Session>)
    ensures r.store.users == UserModel.SetById(store.users, Get(user, "_id"), "last_login", Date(clock.loginAt))
    ensures r.result.Err? ==> r.store.tokens == store.tokens
    ensures r.jwt.(keys := jwt.keys) == jwt
    ensures r.result.Ok? ==>
              && JwtManager.Cached(r.jwt.keys, JwtManager.KeySlot(JwtManager.Access, true))
                 == JwtManager.KeyFor(jwt, fs, JwtManager.KeySlot(JwtManager.Access, true))
              && JwtManager.Cached(r.jwt.keys, JwtManager.KeySlot(JwtManager.Refresh, true))
                 == JwtManager.KeyFor(jwt, fs, JwtManager.KeySlot(JwtManager.Refresh, true))
    ensures r.result.Ok? ==>
              var session := r.result.value;
              && session.user == user["last_login" := Date(clock.loginAt)] - {"password"}
              && "password" !in session.user
              && sign(session.user, JwtManager.KeyFor(jwt, fs, JwtManager.KeySlot(JwtManager.Access, true)),
                      JwtManager.SignOptions(jwt.algorithm, jwt.accessTtl)) == Ok(session.accessToken)
              && sign(session.user, JwtManager.KeyFor(jwt, fs, JwtManager.KeySlot(JwtManager.Refresh, true)),
                      JwtManager.SignOptions(jwt.algorithm, jwt.refreshTtl)) == Ok(session.refreshToken)
              && r.store.tokens == store.tokens + [RefreshTokenModel.RefreshRecord(
                   session.refreshToken, Get(user, "_id"), Date(clock.issuedAt), Date(clock.issuedAt))]
  {
    var users := UserModel.SetById(store.users, Get(user, "_id"), "last_login", Date(clock.loginAt));
    var saved := store.(users := users);
    var normalized := user["last_login" := Date(clock.loginAt)] - {"password"};
    var tokens := SessionTokens(jwt, fs, sign, normalized);
    match tokens.1
    case Err(e) => Step(saved, tokens.0, Err(e))
    case Ok(pair) =>
      match DbManager.AddRefreshToken(saved, Get(normalized, "_id"), pair.1, clock.issuedAt)
      case Err(e) => Step(saved, tokens.0, Err(e))
      case Ok(stored) => Step(stored, tokens.0, Ok(Session(pair.0, pair.1, normalized)))
  }

  /** `Identity.loginUser({ username, email, password })` as written:
      `comparePassword` hands back a Promise that is never awaited, and a
      Promise is truthy, so the `invalid password` branch is dead. The only
      way the check fails login is by throwing from its argument guards. */
  function LoginUser(store: DbManager.Store, jwt: JwtManager.Jwt, fs: JwtManager.Fs,
                     sign: JwtManager.SignFn, compare: Auth.CompareFn,
                     credentials: Credentials, clock: Clock): (r: Step<Session>)
    ensures var found := FindUserByUsernameOrEmail(store, credentials.username, credentials.email);
            found.Err? ==> r == Step(store, jwt, Err(found.error))
    ensures var found := FindUserByUsernameOrEmail(store, credentials.username, credentials.email);
            found.Ok? && !IsNonEmptyString(credentials.password) ==>
              r == Step(store, jwt, Err(TypeError(Auth.PlainTextArgumentMessage)))
    ensures var found := FindUserByUsernameOrEmail(store, credentials.username, credentials.email);
            found.Ok? && IsNonEmptyString(credentials.password) && !IsNonEmptyString(Get(found.value, "password")) ==>
              r == Step(store, jwt, Err(TypeError(Auth.HashToCompareMessage)))
    ensures var found := FindUserByUsernameOrEmail(store, credentials.username, credentials.email);
            found.Ok? && IsNonEmptyString(credentials.password) && IsNonEmptyString(Get(found.value, "password")) ==>
              r == IssueSession(store, jwt, fs, sign, found.value, clock)
    ensures DbManager.Valid(store) ==> DbManager.Valid(r.store)
  {
    match FindUserByUsernameOrEmail(store, credentials.username, credentials.email)
    case Err(e) => Step(store, jwt, Err(e))
    case Ok(user) =>
      match Auth.ComparePassword(credentials.password, Get(user, "password"), compare)
      case Err(e) => Step(store, jwt, Err(e))
      case Ok(passwordsMatch) =>
        if !Truthy(PromiseObject(passwordsMatch)) then Step(store, jwt, Err(PlainError(InvalidPassword)))
        else
          IssueSessionKeepsValid(store, jwt, fs, sign, user, clock);
          IssueSession(store, jwt, fs, sign, user, clock)
  }

  /** Issuing a session keeps the unique indexes satisfied: `last_login`
      has no index, and a refresh record is only added with a new token. */
  lemma IssueSessionKeepsValid(store: DbManager.Store, jwt: JwtManager.Jwt, fs: JwtManager.Fs,
                               sign: JwtManager.SignFn, user: Doc, clock: Clock)
    ensures DbManager.Valid(store) ==> DbManager.Valid(IssueSession(store, jwt, fs, sign, user, clock).store)
  {
    UserModel.SetByIdKeepsUnique(store.users, Get(user, "_id"), "last_login", Date(clock.loginAt));
  }

  /** `Identity.validateAccessToken(accessToken)`: every rejection of the
      verification is absorbed into `validated: false`. */
  function ValidateAccessToken(jwt: JwtManager.Jwt, fs: JwtManager.Fs, verify: JwtManager.VerifyFn,
                               accessToken: string): (r: (JwtManager.Jwt, Validation))
    ensures var verified := JwtManager.AuthenticateToken(jwt, fs, verify, "access", accessToken);
            && r.0 == verified.0
            && (r.1.validated <==> verified.1.Ok?)
            && (r.1.validated ==> r.1.user == Some(verified.1.value))
            && (!r.1.validated ==> r.1.user == None)
    ensures var slot := JwtManager.KeySlot(JwtManager.Access, false);
            JwtManager.KeyAvailable(jwt, fs, slot) ==>
              (r.1.validated <==> verify(accessToken, JwtManager.KeyFor(jwt, fs, slot), JwtManager.VerifyOptions(jwt.algorithm)).Ok?)
    ensures !JwtManager.KeyAvailable(jwt, fs, JwtManager.KeySlot(JwtManager.Access, false)) ==>
              r == (jwt, Validation(None, false))
  {
    var verified := JwtManager.AuthenticateToken(jwt, fs, verify, "access", accessToken);
    match verified.1
    case Ok(payload) => (verified.0, Validation(Some(payload), true))
    case Err(_) => (verified.0, Validation(None, false))
  }

  /** Once a validation has read a non-empty public access key, later
      validations read nothing: they give the same answer whatever the file
      system holds by then, and leave the manager as it is. */
  lemma ValidationReadsKeyOnce(jwt: JwtManager.Jwt, fs: JwtManager.Fs, later: JwtManager.Fs,
                               verify: JwtManager.VerifyFn, accessToken: string, nextToken: string)
    requires var path := JwtManager.PathOf(jwt.paths, JwtManager.KeySlot(JwtManager.Access, false));
             path in fs && fs[path] != ""
    ensures var first := ValidateAccessToken(jwt, fs, verify, accessToken).0;
            && ValidateAccessToken(first, later, verify, nextToken) == ValidateAccessToken(first, fs, verify, nextToken)
            && ValidateAccessToken(first, later, verify, nextToken).0 == first
  {
    JwtManager.AuthenticateTokenReadsKeyOnce(jwt, fs, later, verify, "access", accessToken, nextToken);
  }

  /** `Identity.getNewAccessToken(refreshToken)`: a refresh token that
      fails verification is deleted from the store and the failure
      re-thrown; a verified one settles as signing an access token from its
      payload does, and the store is left alone. */
  function GetNewAccessToken(store: DbManager.Store, jwt: JwtManager.Jwt, fs: JwtManager.Fs,
                             sign: JwtManager.SignFn, verify: JwtManager.VerifyFn,
                             refreshToken: string): (r: Step<string>)
    ensures var verified := JwtManager.AuthenticateToken(jwt, fs, verify, "refresh", refreshToken);
            verified.1.Err? ==>
              r == Step(DbManager.RemoveRefreshToken(store, refreshToken), verified.0, Err(verified.1.error))
    ensures var verified := JwtManager.AuthenticateToken(jwt, fs, verify, "refresh", refreshToken);
            verified.1.Ok? ==>
              && r.store == store
              && (r.jwt, r.result) == JwtManager.GenerateToken(verified.0, fs, sign, "access", verified.1.value, Undefined)
  {
    var verified := JwtManager.AuthenticateToken(jwt, fs, verify, "refresh", refreshToken);
    match verified.1
    case Err(e) => Step(DbManager.RemoveRefreshToken(store, refreshToken), verified.0, Err(e))
    case Ok(payload) =>
      var access := JwtManager.GenerateToken(verified.0, fs, sign, "access", payload, Undefined);
      Step(store, access.0, access.1)
  }

  /** `Identity.logoutUser(refreshToken)`: deletes the one record carrying
      the token; an unknown token is not an error. */
  function LogoutUser(store: DbManager.Store, refreshToken: string): (r: DbManager.Store)
    ensures r.users == store.users
    ensures |r.tokens| == if RefreshTokenModel.HasToken(store.tokens, refreshToken) then |store.tokens| - 1 else |store.tokens|
    ensures forall k :: 0 <= k < |store.tokens| && store.tokens[k].token != refreshToken ==> store.tokens[k] in r.tokens
    ensures RefreshTokenModel.Spliced(r.tokens, store.tokens, RefreshTokenModel.FirstIndex(store.tokens, refreshToken))
    ensures DbManager.Valid(store) ==> DbManager.Valid(r) && !RefreshTokenModel.HasToken(r.tokens, refreshToken)
  {
    RefreshTokenModel.RemoveDeletesAtMostOne(store.tokens, refreshToken);
    var r := DbManager.RemoveRefreshToken(store, refreshToken);
    assert DbManager.Valid(store) ==> DbManager.Valid(r) && !RefreshTokenModel.HasToken(r.tokens, refreshToken) by {
      if DbManager.Valid(store) {
        RefreshTokenModel.RemoveKeepsTokensUnique(store.tokens, refreshToken);
      }
    }
    r
  }

  /** `Identity.logoutUserEverywhere({ username, email })`: resolves the
      user, then deletes every refresh record it owns. */
  function LogoutUserEverywhere(store: DbManager.Store, username: JsValue, email: JsValue): (r: Result<DbManager.Store>)
    ensures r.Err? <==> FindUserByUsernameOrEmail(store, username, email).Err?
    ensures r.Err? ==> r.error == FindUserByUsernameOrEmail(store, username, email).error
    ensures r.Ok? ==>
              var owner := Get(FindUserByUsernameOrEmail(store, username, email).value, "_id");
              && r.value.users == store.users
              && RefreshTokenModel.Sessions(r.value.tokens, owner) == []
              && forall other :: other != owner ==>
                   RefreshTokenModel.Sessions(r.value.tokens, other) == RefreshTokenModel.Sessions(store.tokens, other)
  {
    var user :- FindUserByUsernameOrEmail(store, username, email);
    var owner := Get(user, "_id");
    var r := DbManager.RemoveRefreshTokensByUserId(store, owner);
    assert RefreshTokenModel.Sessions(r.tokens, owner) == [] by {
      RefreshTokenModel.RemoveByOwnerKeepsOthers(store.tokens, owner, owner);
    }
    assert forall other :: other != owner ==>
             RefreshTokenModel.Sessions(r.tokens, other) == RefreshTokenModel.Sessions(store.tokens, other) by {
      forall other | other != owner
        ensures RefreshTokenModel.Sessions(r.tokens, other) == RefreshTokenModel.Sessions(store.tokens, other)
      {
        RefreshTokenModel.RemoveByOwnerKeepsOthers(store.tokens, owner, other);
      }
    }
    Ok(r)
  }

  // ---------------------------------------------------------------------
  // Properties

  /** Login does not depend on whether the password matches: any two bcrypt
      compare functions, one accepting everything and one refusing
      everything among them, give the same login. */
  lemma LoginIgnoresPasswordMatch(store: DbManager.Store, jwt: JwtManager.Jwt, fs: JwtManager.Fs,
                                  sign: JwtManager.SignFn, compare1: Auth.CompareFn, compare2: Auth.CompareFn,
                                  credentials: Credentials, clock: Clock)
    ensures LoginUser(store, jwt, fs, sign, compare1, credentials, clock)
            == LoginUser(store, jwt, fs, sign, compare2, credentials, clock)
  {
  }

  /** A successful login leaves exactly one new refresh record, owned by
      the logged-in user and carrying the returned refresh token, and
      returns that user without its password. */
  lemma LoginStoresOneSession(store: DbManager.Store, jwt: JwtManager.Jwt, fs: JwtManager.Fs,
                              sign: JwtManager.SignFn, compare: Auth.CompareFn,
                              credentials: Credentials, clock: Clock)
    ensures var r := LoginUser(store, jwt, fs, sign, compare, credentials, clock);
            r.result.Ok? ==>
            var user := FindUserByUsernameOrEmail(store, credentials.username, credentials.email).value;
            && "password" !in r.result.value.user
            && Get(r.result.value.user, "_id") == Get(user, "_id")
            && |r.store.tokens| == |store.tokens| + 1
            && r.store.tokens[..|store.tokens|] == store.tokens
            && r.store.tokens[|store.tokens|].token == r.result.value.refreshToken
            && r.store.tokens[|store.tokens|].user == Get(user, "_id")
  {
    var r := LoginUser(store, jwt, fs, sign, compare, credentials, clock);
    if r.result.Ok? {
      var user := FindUserByUsernameOrEmail(store, credentials.username, credentials.email).value;
      assert r == IssueSession(store, jwt, fs, sign, user, clock);
      assert Get(user["last_login" := Date(clock.loginAt)] - {"password"}, "_id") == Get(user, "_id");
    }
  }

  /** A session is issued whenever both private keys can be found, both
      signatures succeed and the refresh token is new and non-empty: the
      user's own `_id` finds the user again when the record is stored. */
  lemma IssueSessionSucceeds(store: DbManager.Store, jwt: JwtManager.Jwt, fs: JwtManager.Fs,
                             sign: JwtManager.SignFn, user: Doc, clock: Clock)
    requires user in store.users
    requires JwtManager.KeyAvailable(jwt, fs, JwtManager.KeySlot(JwtManager.Access, true))
    requires JwtManager.KeyAvailable(jwt, fs, JwtManager.KeySlot(JwtManager.Refresh, true))
    requires var payload := user["last_login" := Date(clock.loginAt)] - {"password"};
             sign(payload, JwtManager.KeyFor(jwt, fs, JwtManager.KeySlot(JwtManager.Access, true)),
                  JwtManager.SignOptions(jwt.algorithm, jwt.accessTtl)).Ok?
    requires var payload := user["last_login" := Date(clock.loginAt)] - {"password"};
             var refresh := sign(payload, JwtManager.KeyFor(jwt, fs, JwtManager.KeySlot(JwtManager.Refresh, true)),
                                 JwtManager.SignOptions(jwt.algorithm, jwt.refreshTtl));
             refresh.Ok? && refresh.value != "" && !RefreshTokenModel.HasToken(store.tokens, refresh.value)
    ensures IssueSession(store, jwt, fs, sign, user, clock).result.Ok?
  {
    var id := Get(user, "_id");
    var users := UserModel.SetById(store.users, id, "last_login", Date(clock.loginAt));
    var payload := user["last_login" := Date(clock.loginAt)] - {"password"};
    SavedUserFound(store.users, user, Date(clock.loginAt));
    assert Get(payload, "_id") == id;
  }

  /** After `last_login` is saved, the user's own `_id` still finds a stored
      user. */
  lemma SavedUserFound(users: seq<Doc>, user: Doc, stamp: JsValue)
    requires user in users
    ensures UserModel.FindById(UserModel.SetById(users, Get(user, "_id"), "last_login", stamp), Get(user, "_id")).Some?
  {
    var saved := UserModel.SetById(users, Get(user, "_id"), "last_login", stamp);
    var i :| 0 <= i < |users| && users[i] == user;
    assert Get(saved[i], "_id") == Get(user, "_id");
  }

  /** Login can succeed: with a stored user found by its name or email,
      passwords of the right shape and the conditions of
      `IssueSessionSucceeds`, the login resolves. */
  lemma LoginCanSucceed(store: DbManager.Store, jwt: JwtManager.Jwt, fs: JwtManager.Fs,
                        sign: JwtManager.SignFn, compare: Auth.CompareFn,
                        credentials: Credentials, clock: Clock)
    requires FindUserByUsernameOrEmail(store, credentials.username, credentials.email).Ok?
    requires IsNonEmptyString(credentials.password)
    requires var user := FindUserByUsernameOrEmail(store, credentials.username, credentials.email).value;
             IsNonEmptyString(Get(user, "password"))
    requires JwtManager.KeyAvailable(jwt, fs, JwtManager.KeySlot(JwtManager.Access, true))
    requires JwtManager.KeyAvailable(jwt, fs, JwtManager.KeySlot(JwtManager.Refresh, true))
    requires var user := FindUserByUsernameOrEmail(store, credentials.username, credentials.email).value;
             var payload := user["last_login" := Date(clock.loginAt)] - {"password"};
             sign(payload, JwtManager.KeyFor(jwt, fs, JwtManager.KeySlot(JwtManager.Access, true)),
                  JwtManager.SignOptions(jwt.algorithm, jwt.accessTtl)).Ok?
    requires var user := FindUserByUsernameOrEmail(store, credentials.username, credentials.email).value;
             var payload := user["last_login" := Date(clock.loginAt)] - {"password"};
             var refresh := sign(payload, JwtManager.KeyFor(jwt, fs, JwtManager.KeySlot(JwtManager.Refresh, true)),
                                 JwtManager.SignOptions(jwt.algorithm, jwt.refreshTtl));
             refresh.Ok? && refresh.value != "" && !RefreshTokenModel.HasToken(store.tokens, refresh.value)
    ensures LoginUser(store, jwt, fs, sign, compare, credentials, clock).result.Ok?
  {
    var user := FindUserByUsernameOrEmail(store, credentials.username, credentials.email).value;
    IssueSessionSucceeds(store, jwt, fs, sign, user, clock);
  }

  /** Refreshing never consults the stored refresh records: the new
      manager state and the outcome are the same for any two stores. */
  lemma RefreshIgnoresStore(store1: DbManager.Store, store2: DbManager.Store, jwt: JwtManager.Jwt,
                            fs: JwtManager.Fs, sign: JwtManager.SignFn, verify: JwtManager.VerifyFn,
                            refreshToken: string)
    ensures var r1 := GetNewAccessToken(store1, jwt, fs, sign, verify, refreshToken);
            var r2 := GetNewAccessToken(store2, jwt, fs, sign, verify, refreshToken);
            r1.jwt == r2.jwt && r1.result == r2.result
  {
  }

  /** So logging out does not revoke: after `logoutUser` deleted its
      record, refreshing with the token settles exactly as it did before. */
  lemma RefreshAfterLogout(store: DbManager.Store, jwt: JwtManager.Jwt, fs: JwtManager.Fs,
                           sign: JwtManager.SignFn, verify: JwtManager.VerifyFn, refreshToken: string)
    requires DbManager.Valid(store)
    ensures var loggedOut := LogoutUser(store, refreshToken);
            && !RefreshTokenModel.HasToken(loggedOut.tokens, refreshToken)
            && GetNewAccessToken(loggedOut, jwt, fs, sign, verify, refreshToken).result
               == GetNewAccessToken(store, jwt, fs, sign, verify, refreshToken).result
  {
    RefreshIgnoresStore(LogoutUser(store, refreshToken), store, jwt, fs, sign, verify, refreshToken);
  }

  // ---------------------------------------------------------------------
  // The evidently intended behaviour where the code as written departs from it

  /** As written, a password bcrypt reports as not matching still logs the
      user in: the result is that of issuing a session. */
  lemma WrongPasswordLogsIn(store: DbManager.Store, jwt: JwtManager.Jwt, fs: JwtManager.Fs,
                            sign: JwtManager.SignFn, compare: Auth.CompareFn,
                            credentials: Credentials, clock: Clock)
    requires FindUserByUsernameOrEmail(store, credentials.username, credentials.email).Ok?
    requires var user := FindUserByUsernameOrEmail(store, credentials.username, credentials.email).value;
             && IsNonEmptyString(credentials.password)
             && IsNonEmptyString(Get(user, "password"))
             && compare(credentials.password.s, Get(user, "password").s) == Ok(false)
    ensures var user := FindUserByUsernameOrEmail(store, credentials.username, credentials.email).value;
            LoginUser(store, jwt, fs, sign, compare, credentials, clock) == IssueSession(store, jwt, fs, sign, user, clock)
  {
  }

  /** `loginUser` awaiting `comparePassword`: a compare that rejects fails
      the login with its error, a `false` fails it with `invalid password`,
      and only a `true` goes on to issue a session. */
  function LoginUserAwaitingCompare(store: DbManager.Store, jwt: JwtManager.Jwt, fs: JwtManager.Fs,
                                    sign: JwtManager.SignFn, compare: Auth.CompareFn,
                                    credentials: Credentials, clock: Clock): (r: Step<Session>)
    ensures var found := FindUserByUsernameOrEmail(store, credentials.username, credentials.email);
            found.Err? ==> r == Step(store, jwt, Err(found.error))
    ensures r.result.Ok? ==>
              var user := FindUserByUsernameOrEmail(store, credentials.username, credentials.email).value;
              && IsNonEmptyString(credentials.password)
              && IsNonEmptyString(Get(user, "password"))
              && compare(credentials.password.s, Get(user, "password").s) == Ok(true)
    ensures var found := FindUserByUsernameOrEmail(store, credentials.username, credentials.email);
            found.Ok? && IsNonEmptyString(credentials.password) && IsNonEmptyString(Get(found.value, "password"))
            && compare(credentials.password.s, Get(found.value, "password").s) == Ok(false) ==>
              r == Step(store, jwt, Err(PlainError(InvalidPassword)))
    ensures var found := FindUserByUsernameOrEmail(store, credentials.username, credentials.email);
            found.Ok? && IsNonEmptyString(credentials.password) && IsNonEmptyString(Get(found.value, "password"))
            && compare(credentials.password.s, Get(found.value, "password").s) == Ok(true) ==>
              r == IssueSession(store, jwt, fs, sign, found.value, clock)
  {
    match FindUserByUsernameOrEmail(store, credentials.username, credentials.email)
    case Err(e) => Step(store, jwt, Err(e))
    case Ok(user) =>
      match Auth.ComparePassword(credentials.password, Get(user, "password"), compare)
      case Err(e) => Step(store, jwt, Err(e))
      case Ok(passwordsMatch) =>
        match passwordsMatch.outcome
        case Err(e) => Step(store, jwt, Err(e))
        case Ok(matched) =>
          if !matched then Step(store, jwt, Err(PlainError(InvalidPassword)))
          else IssueSession(store, jwt, fs, sign, user, clock)
  }

  /** With the check awaited, a refused password changes nothing: neither
      the store nor the token manager. */
  lemma WrongPasswordRefused(store: DbManager.Store, jwt: JwtManager.Jwt, fs: JwtManager.Fs,
                             sign: JwtManager.SignFn, compare: Auth.CompareFn,
                             credentials: Credentials, clock: Clock)
    requires FindUserByUsernameOrEmail(store, credentials.username, credentials.email).Ok?
    requires var user := FindUserByUsernameOrEmail(store, credentials.username, credentials.email).value;
             && credentials.password.Str? && Get(user, "password").Str?
             && compare(credentials.password.s, Get(user, "password").s) == Ok(false)
    ensures var r := LoginUserAwaitingCompare(store, jwt, fs, sign, compare, credentials, clock);
            r.store == store && r.jwt == jwt && r.result.Err?
  {
  }
}

=== FILE: js.dfy ===
/** JavaScript values as the identity library handles them, JavaScript
    truthiness, the errors the library raises or lets through, and the
    Result/Option carriers every operation of the model returns. */
module Js {

  /** A JavaScript value. `ObjectId` is a MongoDB document id, `Date` a
      timestamp in milliseconds, `Obj` a plain object. */
  datatype JsValue =
    | Undefined
    | Null
    | Bool(b: bool)
    | Num(n: int)
    | Str(s: string)
    | ObjectId(id: nat)
    | Date(ms: int)
    | Arr(items: seq<JsValue>)
    | Obj(props: map<string, JsValue>)

  /** JavaScript's ToBoolean: `undefined`, `null`, `false`, `0` and `""` are
      falsy; every object (dates, arrays, promises included) is truthy. */
  predicate Truthy(v: JsValue) {
    match v
    case Undefined => false
    case Null => false
    case Bool(b) => b
    case Num(n) => n != 0
    case Str(s) => s != ""
    case _ => true
  }

  /** `v && typeof v === 'string'` */
  predicate IsNonEmptyString(v: JsValue) {
    v.Str? && v.s != ""
  }

  /** `a || b` */
  function Or(a: JsValue, b: JsValue): (r: JsValue)
    ensures Truthy(a) ==> r == a
    ensures !Truthy(a) ==> r == b
  {
    if Truthy(a) then a else b
  }

  /** A plain object or a stored document: its own enumerable properties. */
  type Doc = map<string, JsValue>

  /** `d.key` on an object: a missing property reads as `undefined`. */
  function Get(d: Doc, key: string): JsValue {
    if key in d then d[key] else Undefined
  }

  /** The errors the modelled code raises, or lets through from a collaborator. */
  datatype Failure =
    | TypeError(message: string)        // `new TypeError(message)`, or a Node argument check
    | NullDereference(property: string) // the TypeError of reading `property` of null or undefined
    | PlainError(message: string)       // `new Error(message)`
    | NoSuchFile(path: string)          // ENOENT from `fs.readFileSync`
    | DuplicateKey(key: string)         // MongoDB rejecting a second value on a unique index
    | ValidationError(path: string)     // a mongoose `required` validator failing
    | LibraryError(code: nat)           // anything jsonwebtoken or bcrypt reports

  datatype Option<+T> = None | Some(value: T)

  /** A settled call: its value, or the error it was rejected or thrown with. */
  datatype Result<+T> = Ok(value: T) | Err(error: Failure) {
    predicate IsFailure() {
      Err?
    }

    function PropagateFailure<U>(): Result<U>
      requires Err?
    {
      Err(error)
    }

    function Extract(): T
      requires Ok?
    {
      value
    }
  }

  /** The Promise object a call hands back before anyone awaits it. */
  datatype Promise<+T> = Promise(outcome: Result<T>)

  /** A Promise seen as a JavaScript value: an object, whatever its outcome. */
  function PromiseObject<T>(p: Promise<T>): (v: JsValue)
    ensures Truthy(v)
  {
    Obj(map[])
  }
}

=== FILE: jwt_manager.dfy ===
/** The token manager (lib/JwtManager.js): configuration and key
    provisioning at `init`, and the key selection, one-time key cache fill
    and TTL choice around jsonwebtoken's sign and verify, which are opaque
    parameters here. The file system is a map from path to contents. */
module JwtManager {
  import opened Js

  /** The file system: which paths exist, and what they hold. */
  type Fs = map<string, string>

  /** What `fs.writeFileSync` does with a `data` argument that is not a
      string. Node releases before 14 wrote its string form; later releases
      throw an ERR_INVALID_ARG_TYPE TypeError. */
  datatype WriteMode = CoercesToString | RejectsNonString

  const WriteDataMessage := "The \"data\" argument must be of type string or an instance of Buffer, TypedArray, or DataView. Received undefined"
  /** The start of Node's ERR_INVALID_ARG_TYPE message for a non-string
      `path.join` argument. Node goes on with ". Received …" and a
      description of the value, which the model does not spell out. */
  const PathArgumentPrefix := "The \"path\" argument must be of type string"
  const TypeMessage := "type expected to be access or refresh"

  const Algorithm := "RS256"
  const DefaultAccessTtl := "1 hour"
  const DefaultRefreshTtl := "1 week"
  const DefaultPublicAccessKeyPath := "../keys/access.key.pub"
  const DefaultPrivateAccessKeyPath := "../keys/access.key"
  const DefaultPublicRefreshKeyPath := "../keys/refresh.key.pub"
  const DefaultPrivateRefreshKeyPath := "../keys/refresh.key"

  /** The two token classes; each has its own key pair. */
  datatype KeyClass = Access | Refresh

  /** One of the four keys: a kind and a half of its pair. */
  datatype KeySlot = KeySlot(kind: KeyClass, isPrivate: bool)

  datatype KeyPaths = KeyPaths(publicAccess: string, privateAccess: string, publicRefresh: string, privateRefresh: string)

  /** The in-memory key fields of the manager; `undefined` until filled. */
  datatype KeyCache = KeyCache(publicAccess: JsValue, privateAccess: JsValue, publicRefresh: JsValue, privateRefresh: JsValue)

  /** The key fields of a manager that has never held a key. */
  const EmptyCache := KeyCache(Undefined, Undefined, Undefined, Undefined)

  /** The manager singleton after `init`. */
  datatype Jwt = Jwt(algorithm: string, accessTtl: JsValue, refreshTtl: JsValue, paths: KeyPaths, keys: KeyCache)

  /** A freshly generated RSA pair in PEM text (key generation is not modelled). */
  datatype KeyPair = KeyPair(publicKey: string, privateKey: string)

  datatype SignOptions = SignOptions(algorithm: string, expiresIn: JsValue)
  datatype VerifyOptions = VerifyOptions(algorithm: string)

  /** jsonwebtoken's `sign(payload, key, options)` */
  type SignFn = (Doc, JsValue, SignOptions) -> Result<string>

  /** jsonwebtoken's `verify(token, key, options)` */
  type VerifyFn = (string, JsValue, VerifyOptions) -> Result<Doc>

  function PathOf(paths: KeyPaths, slot: KeySlot): string {
    match slot
    case KeySlot(Access, false) => paths.publicAccess
    case KeySlot(Access, true) => paths.privateAccess
    case KeySlot(Refresh, false) => paths.publicRefresh
    case KeySlot(Refresh, true) => paths.privateRefresh
  }

  function Cached(keys: KeyCache, slot: KeySlot): JsValue {
    match slot
    case KeySlot(Access, false) => keys.publicAccess
    case KeySlot(Access, true) => keys.privateAccess
    case KeySlot(Refresh, false) => keys.publicRefresh
    case KeySlot(Refresh, true) => keys.privateRefresh
  }

  /** The cache with one slot assigned. */
  function Store(keys: KeyCache, slot: KeySlot, v: JsValue): (r: KeyCache)
    ensures Cached(r, slot) == v
    ensures forall other: KeySlot :: other != slot ==> Cached(r, other) == Cached(keys, other)
  {
    match slot
    case KeySlot(Access, false) => keys.(publicAccess := v)
    case KeySlot(Access, true) => keys.(privateAccess := v)
    case KeySlot(Refresh, false) => keys.(publicRefresh := v)
    case KeySlot(Refresh, true) => keys.(privateRefresh := v)
  }

  /** The `switch (type)` of generateToken and authenticateToken. */
  function ParseType(tokenType: string): (r: Option<KeyClass>)
    ensures r == Some(Access) <==> tokenType == "access"
    ensures r == Some(Refresh) <==> tokenType == "refresh"
  {
    if tokenType == "access" then Some(Access)
    else if tokenType == "refresh" then Some(Refresh)
    else None
  }

  // ---------------------------------------------------------------------
  // init

  /** The names a generated pair is destructured by. */
  datatype PairNames = PairNames(publicName: string, privateName: string)

  /** The names `generateKeyPair` gives its two halves. */
  const GeneratedNames := PairNames("publicKey", "privateKey")

  /** The names `init` destructures the generated pairs by. */
  const WrittenAccessNames := PairNames("publicAccessKey", "privateAccessKey")
  const WrittenRefreshNames := PairNames("publicRefreshKey", "privateRefreshKey")

  /** `generateKeyPair()`: the object literal `{ publicKey, privateKey }`. */
  function GeneratedPairObject(pair: KeyPair): (r: Doc)
    ensures r.Keys == {GeneratedNames.publicName, GeneratedNames.privateName}
    ensures Get(r, GeneratedNames.publicName) == Str(pair.publicKey)
    ensures Get(r, GeneratedNames.privateName) == Str(pair.privateKey)
    ensures Get(r, WrittenAccessNames.publicName) == Undefined && Get(r, WrittenAccessNames.privateName) == Undefined
    ensures Get(r, WrittenRefreshNames.publicName) == Undefined && Get(r, WrittenRefreshNames.privateName) == Undefined
  {
    map["publicKey" := Str(pair.publicKey), "privateKey" := Str(pair.privateKey)]
  }

  /** `path.join(__dirname, initOptions[key] || fallback)`: `path.join`
      refuses a value that is not a string. */
  function KeyPath(options: Doc, key: string, fallback: string): (r: Result<string>)
    ensures r.Ok? <==> !Truthy(Get(options, key)) || Get(options, key).Str?
    ensures !Truthy(Get(options, key)) ==> r == Ok(fallback)
    ensures IsNonEmptyString(Get(options, key)) ==> r == Ok(Get(options, key).s)
  {
    var chosen := Or(Get(options, key), Str(fallback));
    if chosen.Str? then Ok(chosen.s) else Err(TypeError(PathArgumentPrefix))
  }

  /** `fs.writeFileSync(path, data)`. Only a string or `undefined` reaches
      it from `init`. */
  function WriteFile(fs: Fs, path: string, data: JsValue, mode: WriteMode): (r: Result<Fs>)
    ensures r.Ok? ==> r.value.Keys == fs.Keys + {path}
    ensures r.Ok? ==> forall p :: p in fs && p != path ==> r.value[p] == fs[p]
    ensures data.Str? ==> r == Ok(fs[path := data.s])
    ensures data.Undefined? ==> (r.Ok? <==> mode == CoercesToString)
    ensures data.Undefined? && mode == CoercesToString ==> r == Ok(fs[path := "undefined"])
    ensures r.Err? ==> r.error == TypeError(WriteDataMessage)
  {
    if data.Str? then Ok(fs[path := data.s])
    else if data.Undefined? && mode == CoercesToString then Ok(fs[path := "undefined"])
    else Err(TypeError(WriteDataMessage))
  }

  /** One `if (!fs.existsSync(privatePath)) { ... }` block of `init`: when
      the private key file is absent, generates a pair, destructures it by
      the names given, assigns both halves to the cache and writes the
      private then the public file. */
  function Provision(st: Jwt, fs: Fs, mode: WriteMode, kind: KeyClass, generated: KeyPair,
                     names: PairNames): (r: Result<(Jwt, Fs)>)
    ensures PathOf(st.paths, KeySlot(kind, true)) in fs ==> r == Ok((st, fs))
    ensures r.Err? ==> r == Err(TypeError(WriteDataMessage)) && mode == RejectsNonString
                       && (names.publicName !in GeneratedPairObject(generated) || names.privateName !in GeneratedPairObject(generated))
    ensures r.Ok? ==> r.value.0.(keys := st.keys) == st
    ensures r.Ok? ==> forall other: KeySlot :: other.kind != kind ==> Cached(r.value.0.keys, other) == Cached(st.keys, other)
    ensures r.Ok? ==> fs.Keys <= r.value.1.Keys
    ensures r.Ok? ==> forall p :: p in fs && p != PathOf(st.paths, KeySlot(kind, true)) && p != PathOf(st.paths, KeySlot(kind, false))
                                  ==> r.value.1[p] == fs[p]
  {
    var privatePath := PathOf(st.paths, KeySlot(kind, true));
    var publicPath := PathOf(st.paths, KeySlot(kind, false));
    if privatePath in fs then Ok((st, fs))
    else
      var pairObject := GeneratedPairObject(generated);
      var publicKey := Get(pairObject, names.publicName);
      var privateKey := Get(pairObject, names.privateName);
      var keys := Store(Store(st.keys, KeySlot(kind, false), publicKey), KeySlot(kind, true), privateKey);
      var fs1 :- WriteFile(fs, privatePath, privateKey, mode);
      var fs2 :- WriteFile(fs1, publicPath, publicKey, mode);
      Ok((st.(keys := keys), fs2))
  }

  /** Both `if (!fs.existsSync(...))` blocks of `init`, access pair first. */
  function ProvisionBoth(st: Jwt, fs: Fs, mode: WriteMode, accessPair: KeyPair, refreshPair: KeyPair,
                         accessNames: PairNames, refreshNames: PairNames): (r: Result<(Jwt, Fs)>)
    ensures r.Ok? ==> r.value.0.(keys := st.keys) == st
    ensures r.Ok? ==> fs.Keys <= r.value.1.Keys
    ensures PathOf(st.paths, KeySlot(Access, true)) in fs && PathOf(st.paths, KeySlot(Refresh, true)) in fs ==> r == Ok((st, fs))
  {
    var accessStep :- Provision(st, fs, mode, Access, accessPair, accessNames);
    Provision(accessStep.0, accessStep.1, mode, Refresh, refreshPair, refreshNames)
  }

  /** The properties `init` reads from its argument: those of a plain
      object; a primitive such as a string or number has none of them. */
  function OptionsOf(initOptions: JsValue): Doc {
    if initOptions.Obj? then initOptions.props else map[]
  }

  /** The configuration part of `init`, up to and including the four key
      paths. Reading `initOptions.accessTtl` throws first when the argument
      is `undefined` or `null`. `prior` is whatever the singleton's key
      fields held before. */
  function Configure(prior: KeyCache, initOptions: JsValue): (r: Result<Jwt>)
    ensures initOptions.Undefined? || initOptions.Null? ==> r == Err(NullDereference("accessTtl"))
    ensures r.Ok? ==> r.value.algorithm == Algorithm && r.value.keys == prior
    ensures var options := OptionsOf(initOptions);
            !initOptions.Undefined? && !initOptions.Null? ==>
              (r.Ok? <==> && KeyPath(options, "publicAccessKeyPath", DefaultPublicAccessKeyPath).Ok?
                          && KeyPath(options, "privateAccessKeyPath", DefaultPrivateAccessKeyPath).Ok?
                          && KeyPath(options, "publicRefreshKeyPath", DefaultPublicRefreshKeyPath).Ok?
                          && KeyPath(options, "privateRefreshKeyPath", DefaultPrivateRefreshKeyPath).Ok?)
    ensures var options := OptionsOf(initOptions);
            r.Ok? ==>
              r.value.paths == KeyPaths(KeyPath(options, "publicAccessKeyPath", DefaultPublicAccessKeyPath).value,
                                        KeyPath(options, "privateAccessKeyPath", DefaultPrivateAccessKeyPath).value,
                                        KeyPath(options, "publicRefreshKeyPath", DefaultPublicRefreshKeyPath).value,
                                        KeyPath(options, "privateRefreshKeyPath", DefaultPrivateRefreshKeyPath).value)
    ensures !initOptions.Undefined? && !initOptions.Null? && r.Err? ==> r.error == TypeError(PathArgumentPrefix)
  {
    if initOptions.Undefined? || initOptions.Null? then Err(NullDereference("accessTtl"))
    else
      var options := OptionsOf(initOptions);
      var publicAccess :- KeyPath(options, "publicAccessKeyPath", DefaultPublicAccessKeyPath);
      var privateAccess :- KeyPath(options, "privateAccessKeyPath", DefaultPrivateAccessKeyPath);
      var publicRefresh :- KeyPath(options, "publicRefreshKeyPath", DefaultPublicRefreshKeyPath);
      var privateRefresh :- KeyPath(options, "privateRefreshKeyPath", DefaultPrivateRefreshKeyPath);
      Ok(Jwt(Algorithm,
             Or(Get(options, "accessTtl"), Str(DefaultAccessTtl)),
             Or(Get(options, "refreshTtl"), Str(DefaultRefreshTtl)),
             KeyPaths(publicAccess, privateAccess, publicRefresh, privateRefresh),
             prior))
  }

  /** `JwtManager.init(initOptions)` as written: the generated pairs are
      destructured as `publicAccessKey`/`privateAccessKey` and
      `publicRefreshKey`/`privateRefreshKey`, names the returned object
      does not have. */
  function Init(prior: KeyCache, initOptions: JsValue, fs: Fs, mode: WriteMode,
                accessPair: KeyPair, refreshPair: KeyPair): (r: Result<(Jwt, Fs)>)
    ensures r.Ok? ==> r.value.0.algorithm == Algorithm
    ensures r.Ok? ==> fs.Keys <= r.value.1.Keys
    ensures Configure(prior, initOptions).Err? ==> r == Err(Configure(prior, initOptions).error)
    ensures Configure(prior, initOptions).Ok? && r.Ok? ==>
              && r.value.0.paths == Configure(prior, initOptions).value.paths
              && r.value.0.accessTtl == Configure(prior, initOptions).value.accessTtl
              && r.value.0.refreshTtl == Configure(prior, initOptions).value.refreshTtl
  {
    var st :- Configure(prior, initOptions);
    ProvisionBoth(st, fs, mode, accessPair, refreshPair, WrittenAccessNames, WrittenRefreshNames)
  }

  // ---------------------------------------------------------------------
  // generateToken / authenticateToken

  /** `readKey(path)`: the file's text, or ENOENT. */
  function ReadKey(fs: Fs, path: string): (r: Result<string>)
    ensures r.Ok? <==> path in fs
    ensures r.Ok? ==> r.value == fs[path]
    ensures r.Err? ==> r.error == NoSuchFile(path)
  {
    if path in fs then Ok(fs[path]) else Err(NoSuchFile(path))
  }

  /** The `case` arm of the switch: use the cached key when it is truthy,
      otherwise read the file and cache what was read. */
  function LoadKey(st: Jwt, fs: Fs, slot: KeySlot): (r: Result<(Jwt, JsValue)>)
    ensures Truthy(Cached(st.keys, slot)) ==> r == Ok((st, Cached(st.keys, slot)))
    ensures r.Err? <==> !Truthy(Cached(st.keys, slot)) && PathOf(st.paths, slot) !in fs
    ensures r.Err? ==> r.error == NoSuchFile(PathOf(st.paths, slot))
    ensures r.Ok? ==> r.value.0 == st.(keys := Store(st.keys, slot, r.value.1))
    ensures !Truthy(Cached(st.keys, slot)) && PathOf(st.paths, slot) in fs ==>
              r == Ok((st.(keys := Store(st.keys, slot, Str(fs[PathOf(st.paths, slot)]))), Str(fs[PathOf(st.paths, slot)])))
  {
    var cached := Cached(st.keys, slot);
    if Truthy(cached) then Ok((st, cached))
    else
      var text :- ReadKey(fs, PathOf(st.paths, slot));
      Ok((st.(keys := Store(st.keys, slot, Str(text))), Str(text)))
  }

  /** The `expiresIn` option as written: `expiresIn || type === 'access' ?
      this.accessTtl : this.refreshTtl`, where `?:` binds looser than `||`. */
  function ExpiresIn(st: Jwt, tokenType: string, expiresIn: JsValue): (ttl: JsValue)
    ensures ttl == st.accessTtl || ttl == st.refreshTtl
  {
    if Truthy(expiresIn) || tokenType == "access" then st.accessTtl else st.refreshTtl
  }

  /** The key a call for `slot` ends up using: the cached one when it is
      truthy, otherwise the file's text (defined when the file exists). */
  function KeyFor(st: Jwt, fs: Fs, slot: KeySlot): JsValue {
    if Truthy(Cached(st.keys, slot)) then Cached(st.keys, slot)
    else if PathOf(st.paths, slot) in fs then Str(fs[PathOf(st.paths, slot)])
    else Undefined
  }

  /** Whether a call for `slot` finds a key: cached, or on disk. */
  predicate KeyAvailable(st: Jwt, fs: Fs, slot: KeySlot) {
    Truthy(Cached(st.keys, slot)) || PathOf(st.paths, slot) in fs
  }

  /** `JwtManager.generateToken(type, payload, expiresIn)`. An unknown type
      rejects with a TypeError before anything else can settle the promise;
      otherwise the kind's private key is loaded and the payload signed
      with the configured algorithm. The new manager state is returned even
      when signing fails. */
  function GenerateToken(st: Jwt, fs: Fs, sign: SignFn, tokenType: string, payload: Doc,
                         expiresIn: JsValue): (r: (Jwt, Result<string>))
    ensures ParseType(tokenType).None? ==> r == (st, Err(TypeError(TypeMessage)))
    ensures r.0.(keys := st.keys) == st
    ensures ParseType(tokenType).Some? ==>
              var slot := KeySlot(ParseType(tokenType).value, true);
              forall other: KeySlot :: other != slot ==> Cached(r.0.keys, other) == Cached(st.keys, other)
    ensures r.1.Ok? ==>
              && ParseType(tokenType).Some?
              && r.1 == sign(payload, Cached(r.0.keys, KeySlot(ParseType(tokenType).value, true)),
                             SignOptions(st.algorithm, ExpiresIn(st, tokenType, expiresIn)))
    ensures ParseType(tokenType).Some? ==>
              var slot := KeySlot(ParseType(tokenType).value, true);
              !KeyAvailable(st, fs, slot) ==> r == (st, Err(NoSuchFile(PathOf(st.paths, slot))))
    ensures ParseType(tokenType).Some? ==>
              var slot := KeySlot(ParseType(tokenType).value, true);
              KeyAvailable(st, fs, slot) ==>
                && Cached(r.0.keys, slot) == KeyFor(st, fs, slot)
                && r.1 == sign(payload, KeyFor(st, fs, slot), SignOptions(st.algorithm, ExpiresIn(st, tokenType, expiresIn)))
  {
    match ParseType(tokenType)
    case None => (st, Err(TypeError(TypeMessage)))
    case Some(kind) =>
      match LoadKey(st, fs, KeySlot(kind, true))
      case Err(e) => (st, Err(e))
      case Ok(loaded) =>
        (loaded.0, sign(payload, loaded.1, SignOptions(loaded.0.algorithm, ExpiresIn(loaded.0, tokenType, expiresIn))))
  }

  /** `JwtManager.authenticateToken(type, token)`: loads the kind's public
      key and verifies with an options object naming the configured
      algorithm. */
  function AuthenticateToken(st: Jwt, fs: Fs, verify: VerifyFn, tokenType: string, token: string): (r: (Jwt, Result<Doc>))
    ensures ParseType(tokenType).None? ==> r == (st, Err(TypeError(TypeMessage)))
    ensures r.0.(keys := st.keys) == st
    ensures ParseType(tokenType).Some? ==>
              var slot := KeySlot(ParseType(tokenType).value, false);
              forall other: KeySlot :: other != slot ==> Cached(r.0.keys, other) == Cached(st.keys, other)
    ensures r.1.Ok? ==>
              && ParseType(tokenType).Some?
              && r.1 == verify(token, Cached(r.0.keys, KeySlot(ParseType(tokenType).value, false)),
                               VerifyOptions(st.algorithm))
    ensures ParseType(tokenType).Some? ==>
              var slot := KeySlot(ParseType(tokenType).value, false);
              !KeyAvailable(st, fs, slot) ==> r == (st, Err(NoSuchFile(PathOf(st.paths, slot))))
    ensures ParseType(tokenType).Some? ==>
              var slot := KeySlot(ParseType(tokenType).value, false);
              KeyAvailable(st, fs, slot) ==>
                && Cached(r.0.keys, slot) == KeyFor(st, fs, slot)
                && r.1 == verify(token, KeyFor(st, fs, slot), VerifyOptions(st.algorithm))
  {
    match ParseType(tokenType)
    case None => (st, Err(TypeError(TypeMessage)))
    case Some(kind) =>
      match LoadKey(st, fs, KeySlot(kind, false))
      case Err(e) => (st, Err(e))
      case Ok(loaded) => (loaded.0, verify(token, loaded.1, VerifyOptions(loaded.0.algorithm)))
  }

  // ---------------------------------------------------------------------
  // Properties

  /** `init` always configures RS256, and each TTL is the option when it
      is truthy and the default ('1 hour', '1 week') otherwise. */
  lemma InitDefaults(prior: KeyCache, initOptions: JsValue, fs: Fs, mode: WriteMode,
                     accessPair: KeyPair, refreshPair: KeyPair)
    ensures var r := Init(prior, initOptions, fs, mode, accessPair, refreshPair);
            var options := OptionsOf(initOptions);
            r.Ok? ==>
            var st := r.value.0;
            && st.algorithm == "RS256"
            && st.accessTtl == (if Truthy(Get(options, "accessTtl")) then Get(options, "accessTtl") else Str("1 hour"))
            && st.refreshTtl == (if Truthy(Get(options, "refreshTtl")) then Get(options, "refreshTtl") else Str("1 week"))
  {
    if Init(prior, initOptions, fs, mode, accessPair, refreshPair).Ok? {
      var st := Configure(prior, initOptions).value;
      ConfigureDefaults(prior, initOptions);
      var step := Provision(st, fs, mode, Access, accessPair, WrittenAccessNames).value;
      var last := Provision(step.0, step.1, mode, Refresh, refreshPair, WrittenRefreshNames).value;
      assert Init(prior, initOptions, fs, mode, accessPair, refreshPair).value == last;
    }
  }

  lemma ConfigureDefaults(prior: KeyCache, initOptions: JsValue)
    requires Configure(prior, initOptions).Ok?
    ensures var st := Configure(prior, initOptions).value;
            var options := OptionsOf(initOptions);
            && st.accessTtl == (if Truthy(Get(options, "accessTtl")) then Get(options, "accessTtl") else Str("1 hour"))
            && st.refreshTtl == (if Truthy(Get(options, "refreshTtl")) then Get(options, "refreshTtl") else Str("1 week"))
  {
  }

  /** With both private key files present nothing is generated or written,
      and the key fields keep whatever they held. */
  lemma InitWithKeysOnDisk(prior: KeyCache, initOptions: JsValue, fs: Fs, mode: WriteMode,
                           accessPair: KeyPair, refreshPair: KeyPair)
    requires Configure(prior, initOptions).Ok?
    requires var paths := Configure(prior, initOptions).value.paths;
             paths.privateAccess in fs && paths.privateRefresh in fs
    ensures Init(prior, initOptions, fs, mode, accessPair, refreshPair) == Ok((Configure(prior, initOptions).value, fs))
  {
  }

  /** The four configured key paths are distinct files. */
  predicate DistinctPaths(paths: KeyPaths) {
    && paths.publicAccess != paths.privateAccess
    && paths.publicAccess != paths.publicRefresh
    && paths.publicAccess != paths.privateRefresh
    && paths.privateAccess != paths.publicRefresh
    && paths.privateAccess != paths.privateRefresh
    && paths.publicRefresh != paths.privateRefresh
  }

  /** Provisioning a pair under names the generated object lacks stores
      `undefined` in both cache fields and writes "undefined" to both files. */
  lemma ProvisionLosesKeys(st: Jwt, fs: Fs, kind: KeyClass, generated: KeyPair, names: PairNames)
    requires names.publicName !in GeneratedPairObject(generated) && names.privateName !in GeneratedPairObject(generated)
    requires PathOf(st.paths, KeySlot(kind, true)) !in fs
    requires PathOf(st.paths, KeySlot(kind, true)) != PathOf(st.paths, KeySlot(kind, false))
    ensures var r := Provision(st, fs, CoercesToString, kind, generated, names);
            && r.Ok?
            && Cached(r.value.0.keys, KeySlot(kind, true)) == Undefined
            && Cached(r.value.0.keys, KeySlot(kind, false)) == Undefined
            && r.value.1[PathOf(st.paths, KeySlot(kind, true))] == "undefined"
            && r.value.1[PathOf(st.paths, KeySlot(kind, false))] == "undefined"
  {
  }

  /** Provisioning the refresh pair leaves the access key fields and the
      access key files as the access step left them. */
  lemma ProvisionBothKeepsAccess(st: Jwt, fs: Fs, mode: WriteMode, accessPair: KeyPair, refreshPair: KeyPair,
                                 accessNames: PairNames, refreshNames: PairNames)
    requires DistinctPaths(st.paths)
    ensures var both := ProvisionBoth(st, fs, mode, accessPair, refreshPair, accessNames, refreshNames);
            both.Ok? ==>
            var step := Provision(st, fs, mode, Access, accessPair, accessNames).value;
            var r := both.value;
            && r.0.keys.publicAccess == step.0.keys.publicAccess
            && r.0.keys.privateAccess == step.0.keys.privateAccess
            && (st.paths.publicAccess in step.1 ==> r.1[st.paths.publicAccess] == step.1[st.paths.publicAccess])
            && (st.paths.privateAccess in step.1 ==> r.1[st.paths.privateAccess] == step.1[st.paths.privateAccess])
  {
    if ProvisionBoth(st, fs, mode, accessPair, refreshPair, accessNames, refreshNames).Ok? {
      var step := Provision(st, fs, mode, Access, accessPair, accessNames).value;
      var r := Provision(step.0, step.1, mode, Refresh, refreshPair, refreshNames).value;
      assert step.0.paths == st.paths;
      assert Cached(r.0.keys, KeySlot(Access, false)) == Cached(step.0.keys, KeySlot(Access, false));
      assert Cached(r.0.keys, KeySlot(Access, true)) == Cached(step.0.keys, KeySlot(Access, true));
    }
  }


  /** On a Node that writes `undefined` as text, generating the access pair
      leaves both access key fields `undefined` and both access key files
      holding the text "undefined": the generated keys are lost. */
  lemma GeneratedAccessKeysLost(prior: KeyCache, initOptions: JsValue, fs: Fs,
                                accessPair: KeyPair, refreshPair: KeyPair, st: Jwt)
    requires Configure(prior, initOptions) == Ok(st)
    requires DistinctPaths(st.paths)
    requires st.paths.privateAccess !in fs
    ensures var r := Init(prior, initOptions, fs, CoercesToString, accessPair, refreshPair);
            var paths := st.paths;
            && r.Ok?
            && r.value.0.keys.publicAccess == Undefined
            && r.value.0.keys.privateAccess == Undefined
            && r.value.1[paths.privateAccess] == "undefined"
            && r.value.1[paths.publicAccess] == "undefined"
  {
    assert Init(prior, initOptions, fs, CoercesToString, accessPair, refreshPair)
        == ProvisionBoth(st, fs, CoercesToString, accessPair, refreshPair, WrittenAccessNames, WrittenRefreshNames);
    ProvisionBothLosesAccessKeys(st, fs, accessPair, refreshPair);
  }

  /** The provisioning part of `GeneratedAccessKeysLost`. */
  lemma ProvisionBothLosesAccessKeys(st: Jwt, fs: Fs, accessPair: KeyPair, refreshPair: KeyPair)
    requires DistinctPaths(st.paths)
    requires st.paths.privateAccess !in fs
    ensures var r := ProvisionBoth(st, fs, CoercesToString, accessPair, refreshPair, WrittenAccessNames, WrittenRefreshNames);
            && r.Ok?
            && r.value.0.keys.publicAccess == Undefined
            && r.value.0.keys.privateAccess == Undefined
            && r.value.1[st.paths.privateAccess] == "undefined"
            && r.value.1[st.paths.publicAccess] == "undefined"
  {
    ProvisionLosesKeys(st, fs, Access, accessPair, WrittenAccessNames);
    var step := Provision(st, fs, CoercesToString, Access, accessPair, WrittenAccessNames).value;
    var last := Provision(step.0, step.1, CoercesToString, Refresh, refreshPair, WrittenRefreshNames);
    assert last.Ok?;
    ProvisionBothKeepsAccess(st, fs, CoercesToString, accessPair, refreshPair, WrittenAccessNames, WrittenRefreshNames);
  }

  /** On a Node that refuses non-string data, `init` throws as soon as a
      private key file is missing. */
  lemma InitFailsWhenKeysMissing(prior: KeyCache, initOptions: JsValue, fs: Fs,
                                 accessPair: KeyPair, refreshPair: KeyPair)
    requires Configure(prior, initOptions).Ok?
    requires var paths := Configure(prior, initOptions).value.paths;
             paths.privateAccess !in fs || paths.privateRefresh !in fs
    ensures Init(prior, initOptions, fs, RejectsNonString, accessPair, refreshPair) == Err(TypeError(WriteDataMessage))
  {
    var st := Configure(prior, initOptions).value;
    assert Get(GeneratedPairObject(accessPair), "privateAccessKey") == Undefined;
    assert Get(GeneratedPairObject(refreshPair), "privateRefreshKey") == Undefined;
  }

  /** The TTL chosen by `generateToken`: 'access' always gets the access
      TTL, so does any call with a truthy override, and only 'refresh' (or
      another type) without an override gets the refresh TTL. The override
      value itself is never the TTL unless it happens to equal one. */
  lemma ExpiresInChoice(st: Jwt, tokenType: string, expiresIn: JsValue)
    ensures tokenType == "access" ==> ExpiresIn(st, tokenType, expiresIn) == st.accessTtl
    ensures Truthy(expiresIn) ==> ExpiresIn(st, tokenType, expiresIn) == st.accessTtl
    ensures tokenType != "access" && !Truthy(expiresIn) ==> ExpiresIn(st, tokenType, expiresIn) == st.refreshTtl
  {
  }

  /** Once a call has read a non-empty key file, the key sits in the cache:
      the next call for the same type reads nothing, so it behaves the same
      whatever the file system holds by then. */
  lemma GenerateTokenReadsKeyOnce(st: Jwt, fs: Fs, later: Fs, sign: SignFn, tokenType: string,
                                  payload: Doc, expiresIn: JsValue, payload2: Doc, expiresIn2: JsValue)
    requires ParseType(tokenType).Some?
    requires var path := PathOf(st.paths, KeySlot(ParseType(tokenType).value, true));
             path in fs && fs[path] != ""
    ensures var st1 := GenerateToken(st, fs, sign, tokenType, payload, expiresIn).0;
            && Truthy(Cached(st1.keys, KeySlot(ParseType(tokenType).value, true)))
            && GenerateToken(st1, later, sign, tokenType, payload2, expiresIn2)
               == GenerateToken(st1, fs, sign, tokenType, payload2, expiresIn2)
            && GenerateToken(st1, later, sign, tokenType, payload2, expiresIn2).0 == st1
  {
  }

  /** Signing an access token and then a refresh token from the same
      payload: each call signs with its kind's key, as available before the
      first call, and its kind's TTL. */
  lemma AccessThenRefresh(st: Jwt, fs: Fs, sign: SignFn, payload: Doc)
    requires KeyAvailable(st, fs, KeySlot(Access, true)) && KeyAvailable(st, fs, KeySlot(Refresh, true))
    ensures var access := GenerateToken(st, fs, sign, "access", payload, Undefined);
            var refresh := GenerateToken(access.0, fs, sign, "refresh", payload, Undefined);
            && access.1 == sign(payload, KeyFor(st, fs, KeySlot(Access, true)), SignOptions(st.algorithm, st.accessTtl))
            && refresh.1 == sign(payload, KeyFor(st, fs, KeySlot(Refresh, true)), SignOptions(st.algorithm, st.refreshTtl))
  {
    var access := GenerateToken(st, fs, sign, "access", payload, Undefined);
    assert KeyFor(access.0, fs, KeySlot(Refresh, true)) == KeyFor(st, fs, KeySlot(Refresh, true));
  }

  /** The same for `authenticateToken` and the public keys. */
  lemma AuthenticateTokenReadsKeyOnce(st: Jwt, fs: Fs, later: Fs, verify: VerifyFn, tokenType: string,
                                      token: string, token2: string)
    requires ParseType(tokenType).Some?
    requires var path := PathOf(st.paths, KeySlot(ParseType(tokenType).value, false));
             path in fs && fs[path] != ""
    ensures var st1 := AuthenticateToken(st, fs, verify, tokenType, token).0;
            && Truthy(Cached(st1.keys, KeySlot(ParseType(tokenType).value, false)))
            && AuthenticateToken(st1, later, verify, tokenType, token2)
               == AuthenticateToken(st1, fs, verify, tokenType, token2)
            && AuthenticateToken(st1, later, verify, tokenType, token2).0 == st1
  {
  }

  // ---------------------------------------------------------------------
  // The evidently intended behaviour where the code as written departs from it

  /** The refresh-token call site: asking for a refresh token with an
      explicit override still gets the access TTL, not the override. */
  lemma OverrideIgnored(st: Jwt, expiresIn: JsValue)
    requires Truthy(expiresIn)
    ensures ExpiresIn(st, "refresh", expiresIn) == st.accessTtl
    ensures expiresIn != st.accessTtl ==> ExpiresIn(st, "refresh", expiresIn) != expiresIn
  {
  }

  /** `expiresIn || (type === 'access' ? this.accessTtl : this.refreshTtl)`:
      a truthy override wins, otherwise the TTL of the token's kind. */
  function IntendedExpiresIn(st: Jwt, tokenType: string, expiresIn: JsValue): (ttl: JsValue)
    ensures Truthy(expiresIn) ==> ttl == expiresIn
    ensures !Truthy(expiresIn) && tokenType == "access" ==> ttl == st.accessTtl
    ensures !Truthy(expiresIn) && tokenType != "access" ==> ttl == st.refreshTtl
  {
    Or(expiresIn, if tokenType == "access" then st.accessTtl else st.refreshTtl)
  }

  /** The two readings agree exactly when there is no override, or when
      the override happens to equal the access TTL: every call the library
      itself makes passes no override and is unaffected. */
  lemma ExpiresInAgreement(st: Jwt, tokenType: string, expiresIn: JsValue)
    ensures ExpiresIn(st, tokenType, expiresIn) == IntendedExpiresIn(st, tokenType, expiresIn)
            <==> !Truthy(expiresIn) || expiresIn == st.accessTtl
  {
  }

  /** `init` destructuring the generated pairs by the names
      `generateKeyPair` returns, `publicKey` and `privateKey`. */
  function InitIntended(prior: KeyCache, initOptions: JsValue, fs: Fs, mode: WriteMode,
                        accessPair: KeyPair, refreshPair: KeyPair): (r: Result<(Jwt, Fs)>)
    ensures r.Ok? ==> r.value.0.algorithm == Algorithm
    ensures Configure(prior, initOptions).Ok? ==> r.Ok?
    ensures Configure(prior, initOptions).Err? ==> r == Err(Configure(prior, initOptions).error)
  {
    var st :- Configure(prior, initOptions);
    ProvisionBoth(st, fs, mode, accessPair, refreshPair, GeneratedNames, GeneratedNames)
  }

  /** Provisioning by the right names caches the generated halves and
      writes them to their files. */
  lemma ProvisionKeepsKeys(st: Jwt, fs: Fs, mode: WriteMode, kind: KeyClass, generated: KeyPair)
    requires PathOf(st.paths, KeySlot(kind, true)) !in fs
    requires PathOf(st.paths, KeySlot(kind, true)) != PathOf(st.paths, KeySlot(kind, false))
    ensures var r := Provision(st, fs, mode, kind, generated, GeneratedNames);
            && r.Ok?
            && Cached(r.value.0.keys, KeySlot(kind, true)) == Str(generated.privateKey)
            && Cached(r.value.0.keys, KeySlot(kind, false)) == Str(generated.publicKey)
            && r.value.1[PathOf(st.paths, KeySlot(kind, true))] == generated.privateKey
            && r.value.1[PathOf(st.paths, KeySlot(kind, false))] == generated.publicKey
  {
  }

  /** With the intended names, a generated access pair is cached and
      written, on every Node release. */
  lemma IntendedInitKeepsAccessKeys(prior: KeyCache, initOptions: JsValue, fs: Fs, mode: WriteMode,
                                    accessPair: KeyPair, refreshPair: KeyPair, st: Jwt)
    requires Configure(prior, initOptions) == Ok(st)
    requires DistinctPaths(st.paths)
    requires st.paths.privateAccess !in fs
    ensures var r := InitIntended(prior, initOptions, fs, mode, accessPair, refreshPair);
            var paths := st.paths;
            && r.Ok?
            && r.value.0.keys.publicAccess == Str(accessPair.publicKey)
            && r.value.0.keys.privateAccess == Str(accessPair.privateKey)
            && r.value.1[paths.privateAccess] == accessPair.privateKey
            && r.value.1[paths.publicAccess] == accessPair.publicKey
  {
    assert InitIntended(prior, initOptions, fs, mode, accessPair, refreshPair)
        == ProvisionBoth(st, fs, mode, accessPair, refreshPair, GeneratedNames, GeneratedNames);
    ProvisionKeepsKeys(st, fs, mode, Access, accessPair);
    ProvisionBothKeepsAccess(st, fs, mode, accessPair, refreshPair, GeneratedNames, GeneratedNames);
  }
}

=== FILE: refresh_token_model.dfy ===
/** The RefreshToken collection (models/RefreshToken.js): one record per
    issued refresh token, naming the user document that owns it. */
module RefreshTokenModel {
  import opened Js
  import UserModel

  /** A stored refresh-token record. `user` holds the owner's `_id`. */
  datatype RefreshRecord = RefreshRecord(token: string, user: JsValue, updatedAt: JsValue, createdAt: JsValue)

  const TokenPath := "token"

  predicate HasToken(tokens: seq<RefreshRecord>, token: string) {
    exists i :: 0 <= i < |tokens| && tokens[i].token == token
  }

  /** What the unique index on `token` guarantees of a stored collection. */
  predicate UniqueTokens(tokens: seq<RefreshRecord>) {
    forall i, j :: 0 <= i < j < |tokens| ==> tokens[i].token != tokens[j].token
  }

  /** The records owned by `owner`, in stored order. */
  function Sessions(tokens: seq<RefreshRecord>, owner: JsValue): (r: seq<RefreshRecord>)
    ensures |r| <= |tokens|
    ensures forall k :: 0 <= k < |r| ==> r[k].user == owner
  {
    if |tokens| == 0 then []
    else (if tokens[0].user == owner then [tokens[0]] else []) + Sessions(tokens[1..], owner)
  }

  /** The sessions of `owner` are exactly the stored records it owns. */
  lemma {:induction false} SessionsAreOwnedRecords(tokens: seq<RefreshRecord>, owner: JsValue)
    ensures forall rec :: rec in Sessions(tokens, owner) <==> rec in tokens && rec.user == owner
    decreases |tokens|
  {
    if |tokens| > 0 {
      SessionsAreOwnedRecords(tokens[1..], owner);
      assert tokens == [tokens[0]] + tokens[1..];
    }
  }

  /** `RefreshToken.addRefreshToken(userId, refreshToken)`: the owner is
      looked up first, and `user._id` throws when the lookup found nothing;
      then `save()` runs the `required` validator on `token`, which refuses
      an empty string, and the unique index refuses a token already stored. */
  function AddRefreshToken(users: seq<Doc>, tokens: seq<RefreshRecord>, userId: JsValue,
                           token: string, now: int): (r: Result<seq<RefreshRecord>>)
    ensures UserModel.FindById(users, userId).None? ==> r == Err(NullDereference("_id"))
    ensures r.Ok? <==> UserModel.FindById(users, userId).Some? && token != "" && !HasToken(tokens, token)
    ensures r.Ok? ==> r.value == tokens + [RefreshRecord(token, userId, Date(now), Date(now))]
    ensures r.Ok? && UniqueTokens(tokens) ==> UniqueTokens(r.value)
  {
    match UserModel.FindById(users, userId)
    case None => Err(NullDereference("_id"))
    case Some(user) =>
      var rec := RefreshRecord(token, Get(user, "_id"), Date(now), Date(now));
      if token == "" then Err(ValidationError(TokenPath))
      else if HasToken(tokens, token) then Err(DuplicateKey(TokenPath))
      else Ok(tokens + [rec])
  }

  /** Where the first record carrying `token` sits; `|tokens|` when none does. */
  function FirstIndex(tokens: seq<RefreshRecord>, token: string): (i: nat)
    ensures i <= |tokens|
    ensures i < |tokens| <==> HasToken(tokens, token)
    ensures i < |tokens| ==> tokens[i].token == token
    ensures forall j :: 0 <= j < i ==> tokens[j].token != token
  {
    if |tokens| == 0 then 0
    else if tokens[0].token == token then 0
    else 1 + FirstIndex(tokens[1..], token)
  }

  /** `RefreshToken.removeRefreshToken(token)`, i.e. `deleteOne({ token })`:
      removes the first record carrying the token, if there is one. */
  function RemoveRefreshToken(tokens: seq<RefreshRecord>, token: string): (r: seq<RefreshRecord>)
    ensures Spliced(r, tokens, FirstIndex(tokens, token))
  {
    if |tokens| == 0 then []
    else if tokens[0].token == token then tokens[1..]
    else
      var rest := RemoveRefreshToken(tokens[1..], token);
      SplicedCons(tokens, FirstIndex(tokens[1..], token), rest);
      [tokens[0]] + rest
  }

  /** `r` is `s` with the element at `i` cut out, or `s` itself when `i`
      is past its end. */
  predicate Spliced(r: seq<RefreshRecord>, s: seq<RefreshRecord>, i: nat) {
    && |r| == (if i < |s| then |s| - 1 else |s|)
    && (forall k :: 0 <= k < |r| && k < i ==> r[k] == s[k])
    && (forall k :: i <= k < |r| ==> r[k] == s[k + 1])
  }

  lemma SplicedCons(s: seq<RefreshRecord>, i: nat, rest: seq<RefreshRecord>)
    requires |s| > 0 && Spliced(rest, s[1..], i)
    ensures Spliced([s[0]] + rest, s, i + 1)
  {
    var r := [s[0]] + rest;
    forall k | 0 <= k < |r| && k < i + 1
      ensures r[k] == s[k]
    {
      if k > 0 {
        assert r[k] == rest[k - 1] == s[1..][k - 1];
      }
    }
    forall k | i + 1 <= k < |r|
      ensures r[k] == s[k + 1]
    {
      assert r[k] == rest[k - 1] == s[1..][k];
    }
  }

  /** `RefreshToken.removeRefreshTokensByUserId(userId)`, i.e.
      `deleteMany({ user: userId })`: keeps exactly the records of other owners. */
  function RemoveRefreshTokensByUserId(tokens: seq<RefreshRecord>, userId: JsValue): (r: seq<RefreshRecord>)
    ensures forall rec :: rec in r <==> rec in tokens && rec.user != userId
  {
    if |tokens| == 0 then []
    else (if tokens[0].user == userId then [] else [tokens[0]]) + RemoveRefreshTokensByUserId(tokens[1..], userId)
  }

  // ---------------------------------------------------------------------
  // Properties

  /** `deleteOne` removes one record when the token is stored and none
      otherwise, keeps every record that carries another token, and adds
      none. */
  lemma RemoveDeletesAtMostOne(tokens: seq<RefreshRecord>, token: string)
    ensures |RemoveRefreshToken(tokens, token)| == if HasToken(tokens, token) then |tokens| - 1 else |tokens|
    ensures forall k :: 0 <= k < |tokens| && tokens[k].token != token ==> tokens[k] in RemoveRefreshToken(tokens, token)
    ensures forall rec :: rec in RemoveRefreshToken(tokens, token) ==> rec in tokens
  {
    var r := RemoveRefreshToken(tokens, token);
    var i := FirstIndex(tokens, token);
    assert Spliced(r, tokens, i);
    forall k | 0 <= k < |tokens| && tokens[k].token != token
      ensures tokens[k] in r
    {
      if k < i {
        assert r[k] == tokens[k];
      } else {
        assert k != i;
        assert r[k - 1] == tokens[k];
      }
    }
    forall rec | rec in r
      ensures rec in tokens
    {
      var k :| 0 <= k < |r| && r[k] == rec;
      if k < i {
        assert rec == tokens[k];
      } else {
        assert rec == tokens[k + 1];
      }
    }
  }

  /** Cutting one record out of a collection with unique tokens keeps them
      unique. */
  lemma SplicedKeepsUnique(r: seq<RefreshRecord>, tokens: seq<RefreshRecord>, i: nat)
    requires UniqueTokens(tokens) && Spliced(r, tokens, i)
    ensures UniqueTokens(r)
  {
    forall a, b | 0 <= a < b < |r|
      ensures r[a].token != r[b].token
    {
      var a' := if a < i then a else a + 1;
      var b' := if b < i then b else b + 1;
      assert r[a] == tokens[a'];
      assert r[b] == tokens[b'];
    }
  }

  /** Removing a record keeps the tokens of the rest unique; with unique
      tokens, nothing carrying the removed token is left. */
  lemma RemoveKeepsTokensUnique(tokens: seq<RefreshRecord>, token: string)
    requires UniqueTokens(tokens)
    ensures UniqueTokens(RemoveRefreshToken(tokens, token))
    ensures !HasToken(RemoveRefreshToken(tokens, token), token)
  {
    var r := RemoveRefreshToken(tokens, token);
    var i := FirstIndex(tokens, token);
    SplicedKeepsUnique(r, tokens, i);
    forall k | 0 <= k < |r|
      ensures r[k].token != token
    {
      if k < i {
        assert r[k] == tokens[k];
      } else {
        assert r[k] == tokens[k + 1];
        assert tokens[i].token == token;
      }
    }
  }

  /** Removing every record of `userId` keeps the other owners' sessions,
      in order, and leaves none of `userId`'s. */
  lemma RemoveByOwnerKeepsOthers(tokens: seq<RefreshRecord>, userId: JsValue, owner: JsValue)
    ensures Sessions(RemoveRefreshTokensByUserId(tokens, userId), owner)
            == if owner == userId then [] else Sessions(tokens, owner)
  {
    if owner == userId {
      RemoveByOwnerLeavesNone(tokens, userId);
    } else {
      RemoveByOwnerKeepsOther(tokens, userId, owner);
    }
  }

  lemma {:induction false} RemoveByOwnerLeavesNone(tokens: seq<RefreshRecord>, userId: JsValue)
    ensures Sessions(RemoveRefreshTokensByUserId(tokens, userId), userId) == []
    decreases |tokens|
  {
    if |tokens| > 0 {
      RemoveByOwnerLeavesNone(tokens[1..], userId);
      var rest := RemoveRefreshTokensByUserId(tokens[1..], userId);
      if tokens[0].user == userId {
        assert RemoveRefreshTokensByUserId(tokens, userId) == [] + rest == rest;
      } else {
        var kept := [tokens[0]] + rest;
        assert RemoveRefreshTokensByUserId(tokens, userId) == kept;
        assert kept[0] == tokens[0] && kept[1..] == rest;
        assert Sessions(kept, userId) == [] + Sessions(rest, userId);
      }
    }
  }

  lemma {:induction false} RemoveByOwnerKeepsOther(tokens: seq<RefreshRecord>, userId: JsValue, owner: JsValue)
    requires owner != userId
    ensures Sessions(RemoveRefreshTokensByUserId(tokens, userId), owner) == Sessions(tokens, owner)
    decreases |tokens|
  {
    if |tokens| > 0 {
      RemoveByOwnerKeepsOther(tokens[1..], userId, owner);
      var rest := RemoveRefreshTokensByUserId(tokens[1..], userId);
      var head := if tokens[0].user == owner then [tokens[0]] else [];
      assert Sessions(tokens, owner) == head + Sessions(tokens[1..], owner);
      if tokens[0].user == userId {
        assert RemoveRefreshTokensByUserId(tokens, userId) == [] + rest == rest;
        assert head == [];
        assert Sessions(tokens, owner) == Sessions(tokens[1..], owner);
      } else {
        var kept := [tokens[0]] + rest;
        assert RemoveRefreshTokensByUserId(tokens, userId) == kept;
        assert kept[0] == tokens[0] && kept[1..] == rest;
        assert Sessions(kept, owner) == head + Sessions(rest, owner);
      }
    }
  }

  /** `deleteMany` by owner removes exactly as many records as the owner had. */
  lemma {:induction false} RemoveByOwnerCount(tokens: seq<RefreshRecord>, userId: JsValue)
    ensures |RemoveRefreshTokensByUserId(tokens, userId)| + |Sessions(tokens, userId)| == |tokens|
    decreases |tokens|
  {
    if |tokens| > 0 {
      RemoveByOwnerCount(tokens[1..], userId);
    }
  }

  /** `deleteMany` by owner is idempotent. */
  lemma {:induction false} RemoveByOwnerIdempotent(tokens: seq<RefreshRecord>, userId: JsValue)
    ensures RemoveRefreshTokensByUserId(RemoveRefreshTokensByUserId(tokens, userId), userId)
            == RemoveRefreshTokensByUserId(tokens, userId)
    decreases |tokens|
  {
    if |tokens| > 0 {
      RemoveByOwnerIdempotent(tokens[1..], userId);
      var rest := RemoveRefreshTokensByUserId(tokens[1..], userId);
      var r := RemoveRefreshTokensByUserId(tokens, userId);
      if tokens[0].user == userId {
        assert r == rest;
      } else {
        assert r == [tokens[0]] + rest;
        assert r[0] == tokens[0] && r[1..] == rest;
      }
    }
  }

  /** `deleteMany` by owner keeps the remaining tokens unique. */
  lemma {:induction false} RemoveByOwnerKeepsTokensUnique(tokens: seq<RefreshRecord>, userId: JsValue)
    requires UniqueTokens(tokens)
    ensures UniqueTokens(RemoveRefreshTokensByUserId(tokens, userId))
    decreases |tokens|
  {
    if |tokens| > 0 {
      RemoveByOwnerKeepsTokensUnique(tokens[1..], userId);
      var rest := RemoveRefreshTokensByUserId(tokens[1..], userId);
      if tokens[0].user != userId {
        forall rec | rec in rest
          ensures rec.token != tokens[0].token
        {
          var k :| 0 <= k < |tokens[1..]| && tokens[1..][k] == rec;
          assert tokens[k + 1] == rec;
        }
      }
    }
  }
}

=== FILE: user_model.dfy ===
/** The User collection (models/User.js): how `addUser` builds a new
    document from the caller's fields, the schema defaults, the unique
    indexes, and the `findOne`/`findById` queries the rest of the library
    issues against the collection. A document is the map of its fields,
    `_id` included. */
module UserModel {
  import opened Js

  /** The fields with a unique index: MongoDB's own `_id`, and `user_id`,
      `username` and `email` from the schema. */
  const UniqueKeys: seq<string> := ["_id", "user_id", "username", "email"]

  /** The value a unique index records for a field: an index that is not
      sparse records a missing or undefined field as `null`. */
  function IndexKey(d: Doc, key: string): JsValue {
    var v := Get(d, key);
    if v.Undefined? then Null else v
  }

  /** The first unique field on which two documents collide, if any. */
  function ClashKey(a: Doc, b: Doc): (r: Option<string>)
    ensures r.Some? ==> r.value in UniqueKeys && IndexKey(a, r.value) == IndexKey(b, r.value)
    ensures r.None? <==> forall k :: k in UniqueKeys ==> IndexKey(a, k) != IndexKey(b, k)
  {
    if IndexKey(a, "_id") == IndexKey(b, "_id") then Some("_id")
    else if IndexKey(a, "user_id") == IndexKey(b, "user_id") then Some("user_id")
    else if IndexKey(a, "username") == IndexKey(b, "username") then Some("username")
    else if IndexKey(a, "email") == IndexKey(b, "email") then Some("email")
    else None
  }

  predicate Clash(a: Doc, b: Doc) {
    ClashKey(a, b).Some?
  }

  /** What the unique indexes guarantee of a stored collection. */
  predicate Unique(users: seq<Doc>) {
    forall i, j :: 0 <= i < j < |users| ==> !Clash(users[i], users[j])
  }

  /** The first unique field on which `doc` collides with a stored document. */
  function FindClash(users: seq<Doc>, doc: Doc): (r: Option<string>)
    ensures r.None? <==> forall i :: 0 <= i < |users| ==> !Clash(users[i], doc)
    ensures r.Some? ==> exists i :: 0 <= i < |users| && ClashKey(users[i], doc) == r
  {
    if |users| == 0 then None
    else if Clash(users[0], doc) then ClashKey(users[0], doc)
    else
      var rest := FindClash(users[1..], doc);
      assert forall i :: 1 <= i < |users| ==> users[i] == users[1..][i - 1];
      rest
  }

  /** `findOne({ [key]: value })`: the first document whose field equals the
      value, or `null`. */
  function FindOne(users: seq<Doc>, key: string, value: JsValue): (r: Option<Doc>)
    ensures r.None? <==> forall i :: 0 <= i < |users| ==> Get(users[i], key) != value
    ensures r.Some? ==> exists i :: 0 <= i < |users| && users[i] == r.value
                                    && Get(r.value, key) == value
                                    && forall j :: 0 <= j < i ==> Get(users[j], key) != value
  {
    if |users| == 0 then None
    else if Get(users[0], key) == value then Some(users[0])
    else
      var rest := FindOne(users[1..], key, value);
      assert forall i :: 1 <= i < |users| ==> users[i] == users[1..][i - 1];
      if rest.Some? then
        ghost var k :| 0 <= k < |users[1..]| && users[1..][k] == rest.value
                       && Get(rest.value, key) == value
                       && forall j :: 0 <= j < k ==> Get(users[1..][j], key) != value;
        assert users[k + 1] == rest.value;
        rest
      else rest
  }

  /** `findById(id)` */
  function FindById(users: seq<Doc>, id: JsValue): (r: Option<Doc>)
    ensures r.None? <==> forall i :: 0 <= i < |users| ==> Get(users[i], "_id") != id
    ensures r.Some? ==> r.value in users && Get(r.value, "_id") == id
  {
    FindOne(users, "_id", id)
  }

  /** Saving a loaded document after assigning `key`: the stored document
      with that `_id` gets the new value, every other document is untouched. */
  function SetById(users: seq<Doc>, id: JsValue, key: string, value: JsValue): (r: seq<Doc>)
    ensures |r| == |users|
    ensures forall i :: 0 <= i < |users| ==>
              r[i] == if Get(users[i], "_id") == id then users[i][key := value] else users[i]
  {
    if |users| == 0 then []
    else
      var head := if Get(users[0], "_id") == id then users[0][key := value] else users[0];
      [head] + SetById(users[1..], id, key, value)
  }

  /** Saving a field that has no unique index leaves every index entry as
      it was, so the collection stays free of clashes. */
  lemma SetByIdKeepsUnique(users: seq<Doc>, id: JsValue, key: string, value: JsValue)
    requires key !in UniqueKeys
    ensures Unique(users) ==> Unique(SetById(users, id, key, value))
  {
    var r := SetById(users, id, key, value);
    forall i | 0 <= i < |r|
      ensures forall k :: k in UniqueKeys ==> IndexKey(r[i], k) == IndexKey(users[i], k)
    {
      forall k | k in UniqueKeys
        ensures IndexKey(r[i], k) == IndexKey(users[i], k)
      {
        assert k != key;
      }
    }
    forall i, j | 0 <= i < j < |r|
      ensures ClashKey(r[i], r[j]) == ClashKey(users[i], users[j])
    {
      SameIndexKeysSameClash(r[i], r[j], users[i], users[j]);
    }
  }

  /** Whether two documents clash depends only on their index keys. */
  lemma SameIndexKeysSameClash(a: Doc, b: Doc, a0: Doc, b0: Doc)
    requires forall k :: k in UniqueKeys ==> IndexKey(a, k) == IndexKey(a0, k)
    requires forall k :: k in UniqueKeys ==> IndexKey(b, k) == IndexKey(b0, k)
    ensures ClashKey(a, b) == ClashKey(a0, b0)
  {
    assert "_id" in UniqueKeys && "user_id" in UniqueKeys && "username" in UniqueKeys && "email" in UniqueKeys;
  }

  const StartingKeys: set<string> := {"user_id", "last_login", "last_password_reset", "updated_at", "created_at"}

  /** The fields `addUser` always sets itself. */
  function StartingFields(uuid: string, now: int): (r: Doc)
    ensures r.Keys == StartingKeys
  {
    map["user_id" := Str(uuid),
        "last_login" := Null,
        "last_password_reset" := Null,
        "updated_at" := Date(now),
        "created_at" := Date(now)]
  }

  /** What the new document gets from outside the caller: a fresh `_id`,
      a v4 uuid and the current time. */
  datatype Fresh = Fresh(objectId: nat, uuid: string, now: int)

  /** The schema defaults: `email_verified` is false and `identities` an
      empty array when left undefined. */
  function WithDefaults(d: Doc): (r: Doc)
    ensures r.Keys == d.Keys + {"email_verified", "identities"}
    ensures Get(r, "email_verified") == (if Get(d, "email_verified").Undefined? then Bool(false) else Get(d, "email_verified"))
    ensures Get(r, "identities") == (if Get(d, "identities").Undefined? then Arr([]) else Get(d, "identities"))
    ensures forall k :: k in d && k != "email_verified" && k != "identities" ==> r[k] == d[k]
  {
    var d1 := if Get(d, "email_verified").Undefined? then d["email_verified" := Bool(false)] else d;
    if Get(d1, "identities").Undefined? then d1["identities" := Arr([])] else d1
  }

  /** `new User({ ...newUserObject, ...startingFields })`: the caller's
      fields overlaid with the starting fields; the caller's `_id` is kept
      when it is an ObjectId, as mongoose does, otherwise the fresh one is
      assigned; then the schema defaults. */
  function NewUserDoc(caller: Doc, ids: Fresh): (d: Doc)
    ensures Get(d, "_id") == if Get(caller, "_id").ObjectId? then Get(caller, "_id") else ObjectId(ids.objectId)
  {
    WithDefaults(WithId(caller + StartingFields(ids.uuid, ids.now), ids.objectId))
  }

  function WithId(d: Doc, objectId: nat): (r: Doc)
    ensures forall k :: k in d && k != "_id" ==> k in r && r[k] == d[k]
    ensures Get(r, "_id") == if Get(d, "_id").ObjectId? then Get(d, "_id") else ObjectId(objectId)
  {
    if Get(d, "_id").ObjectId? then d else d["_id" := ObjectId(objectId)]
  }

  /** The spread puts the starting fields last, so they override whatever
      the caller passed under the same names. */
  lemma StartingFieldsWin(caller: Doc, ids: Fresh)
    ensures var d := NewUserDoc(caller, ids);
            && Get(d, "user_id") == Str(ids.uuid)
            && Get(d, "last_login") == Null
            && Get(d, "last_password_reset") == Null
            && Get(d, "updated_at") == Date(ids.now)
            && Get(d, "created_at") == Date(ids.now)
  {
    var start := StartingFields(ids.uuid, ids.now);
    var merged := caller + start;
    var withId := WithId(merged, ids.objectId);
    forall k | k in StartingKeys
      ensures k in withId && withId[k] == start[k]
    {
      assert k != "_id";
    }
  }

  /** Every other field the caller passes, `password` included, is stored
      exactly as given: `addUser` hashes nothing. */
  lemma CallerFieldsKept(caller: Doc, ids: Fresh, k: string)
    requires k in caller && k !in StartingKeys && k != "_id" && !caller[k].Undefined?
    ensures Get(NewUserDoc(caller, ids), k) == caller[k]
  {
    var merged := caller + StartingFields(ids.uuid, ids.now);
    assert merged[k] == caller[k];
  }

  /** `email_verified` defaults to false and `identities` to an empty array. */
  lemma SchemaDefaults(caller: Doc, ids: Fresh)
    ensures Get(NewUserDoc(caller, ids), "email_verified")
            == if Get(caller, "email_verified").Undefined? then Bool(false) else Get(caller, "email_verified")
    ensures Get(NewUserDoc(caller, ids), "identities")
            == if Get(caller, "identities").Undefined? then Arr([]) else Get(caller, "identities")
  {
    var merged := caller + StartingFields(ids.uuid, ids.now);
    assert Get(merged, "email_verified") == Get(caller, "email_verified");
    assert Get(merged, "identities") == Get(caller, "identities");
  }

  /** `newUser.save()` of a new document: refused with a duplicate-key
      error when a unique field collides, otherwise appended. */
  function Insert(users: seq<Doc>, doc: Doc): (r: Result<seq<Doc>>)
    ensures r.Ok? <==> forall i :: 0 <= i < |users| ==> !Clash(users[i], doc)
    ensures r.Ok? ==> r.value == users + [doc]
    ensures r.Err? ==> r.error.DuplicateKey? && r.error.key in UniqueKeys
    ensures r.Ok? && Unique(users) ==> Unique(r.value)
  {
    match FindClash(users, doc)
    case Some(key) => Err(DuplicateKey(key))
    case None => Ok(users + [doc])
  }

  /** `User.addUser(newUserObject)`: the stored collection and the new document. */
  function AddUser(users: seq<Doc>, caller: Doc, ids: Fresh): (r: Result<(seq<Doc>, Doc)>)
    ensures r.Ok? ==> r.value.1 == NewUserDoc(caller, ids) && r.value.0 == users + [r.value.1]
    ensures r.Err? ==> r.error.DuplicateKey? && Insert(users, NewUserDoc(caller, ids)).Err?
    ensures r.Ok? <==> Insert(users, NewUserDoc(caller, ids)).Ok?
    ensures r.Err? ==> r.error == Insert(users, NewUserDoc(caller, ids)).error
  {
    var doc := NewUserDoc(caller, ids);
    var stored :- Insert(users, doc);
    Ok((stored, doc))
  }
}
